=== FILE: README.md ===
# Scheduled check-in and daily report: a Dafny model

The system runs as a long-lived scheduler, `scheduler.py`. Every day it
fires three jobs: the morning check-in, the evening check-in and the
automatic daily report. Each job goes through a gate, which:

- checks a once-per-day record file;
- takes a per-task lock;
- runs the task;
- marks the day done only when the task returned normally;
- always releases the lock.

The daily report, `auto_daily_report.py`, reads the credentials and logs in
to the report site. The login loop retries without limit and solves a
captcha each time. The report flow then checks whether today's report is
already shown. If it is not, the flow generates the report with the site's
AI button and submits it. Finally it posts a WxPusher notification and exits
with status 1 on failure.

The model covers:

- the gate;
- the record and lock files;
- the job table and the run on startup;
- the report program's credential resolution, login loop, page flow,
  notification and exit status.

All of these are pure functions over explicit values. The file system,
clock, environment, command line and browser are parameters.

Modules:

- `Text`: Python's `str.splitlines`, `'\n'.join` and the `in` substring
  test. It includes the split/join round trip.
- `DailyRecord`: `has_run_today` and `mark_run_today` on a `RecordFile`
  value, which can be missing, unreadable or present with its content.
- `TaskLock`: `get_lock_file`, `acquire_lock` and `release_lock`. The set of
  held task names stands for the `flock`ed files.
- `TaskGate`: `run_checkin_task` and `run_daily_report_task`. The task body
  is an outcome:
  - it returned;
  - it raised an `Exception`;
  - it raised `SystemExit`, which `except Exception` does not catch;
  - it is still running.
- `ReportPage`: `check_today_report_submitted` and `submit_daily_report`,
  over a page oracle. For each selector, `wait_for_selector` finds an
  element, times out (raises), or returns `None`.
- `ReportLogin`: `login_unlimited`. The attempts are a finite sequence of
  browser answers; when they run out, the loop is still going.
- `ReportMain`: `run`, `send_notification` and `main`.
- `Schedule`: `start_scheduler`. It covers the three jobs and their
  environment overrides, the `RUN_ON_STARTUP` run, and `report_main` as the
  body of the daily-report gate.

Two behaviours of the source are kept deliberately because they are
consequences of the code:

- When `main` finds no credentials, it returns normally. The gate therefore
  records the daily report as done for that day, although nothing was
  submitted (`Schedule.NoCredentialsMarksDone`).
- A failed report raises `SystemExit(1)`. The gate does not mark the day,
  but it still releases the lock, and the exit leaves the task
  (`Schedule.FailedReportNotMarked`). If this happens on startup, the
  process ends before the scheduler starts
  (`Schedule.StartupReportFailureStops`).

Failure toasts during AI generation are ignored. The completion toast is
polled at most 60 times, and the flow then goes on to submit
(`ReportPage.CompletionTimeoutHarmless`). A timed-out wait for the AI button
itself still fails the flow without submitting.

The gate reads the Beijing date twice in one run. The first reading is for
the record check, before the task body runs. The second is for the mark,
after the body returns. A run that crosses midnight therefore marks the new
day and prunes the day it started on (`TaskGate.MidnightRunForgetsCheckDay`).

The record is written as is but read with universal newlines, so a `\r`
comes back as `\n`. A task whose name or date holds `\r` is therefore never
found in the record and would run on every call
(`DailyRecord.CarriageReturnNeverRecorded`). The three real task names and
`strftime` dates hold no `\r`, so the gate works for them
(`DailyRecord.MarkThenRecorded`).

## Model

| member | source | states |
|---|---|---|
| Text.SplitLines | scheduler.py:106 | Every line `splitlines` returns is free of line boundaries, and an empty text has no lines. |
| Text.JoinLines | scheduler.py:112 | `'\n'.join` of no lines is empty. A join begins with the first line, and with two or more lines a `'\n'` follows it. |
| Text.SplitJoin | scheduler.py:106-112 | Joining non-empty lines without line breaks with `'\n'` and splitting the result with `splitlines` gives back the same lines. |
| Text.ReadTextHasNoReturn | scheduler.py:87 | `read_text` reads with universal newlines, so no `\r` survives a read. |
| Text.ReadTextUnchanged | scheduler.py:87 | A text without `\r` reads back unchanged. |
| Text.ReadTextConcat | scheduler.py:87 | A stretch without `\r` at the start of the text is read as it is, and the rest is translated on its own. |
| Text.SplitRead | scheduler.py:106 | `splitlines` finds the same lines in the text read as in the text stored. `\r\n` and a lone `\r` become `\n`, which is still the same single boundary. |
| Text.JoinReadsBack | scheduler.py:106-112 | Lines without `\r`, joined with `'\n'` and written, read back exactly as written. |
| Text.JoinContainsLine | scheduler.py:109-112 | Every line written by `'\n'.join` occurs as a substring of the written content. |
| DailyRecord.HasRunToday | scheduler.py:75-94 | The answer is true exactly when the record file exists, can be read, and the text `read_text` returns contains `today:name` at some position. A missing or unreadable file answers false. |
| DailyRecord.TodayLines | scheduler.py:106-107 | The filter keeps each old line that starts with today's date as many times as it occurs, and keeps no other line. |
| DailyRecord.MarkRunToday | scheduler.py:97-115 | A read error leaves the record as it was. Otherwise the file is rewritten. |
| DailyRecord.MarkThenRecorded | scheduler.py:75-112 | After a write, `has_run_today` reports the task as run today exactly when neither the date nor the task name contains `\r`. |
| DailyRecord.CarriageReturnNeverRecorded | scheduler.py:83-88 | A key that contains `\r` is never found, whatever the file holds, because `read_text` turns every `\r` into `\n`. Such a task would run on every call. |
| DailyRecord.WellFormedReadsBack | scheduler.py:87 | A record made of `date:task` lines joined with `'\n'` reads back exactly as it was written. |
| DailyRecord.MarkedLines | scheduler.py:104-112 | The lines of the rewritten file are today's old lines in their old order, followed by the key when it was not already one of them. |
| DailyRecord.OnlyTodaySurvives | scheduler.py:104-112 | Every line of a rewritten record starts with today's date. An old line survives exactly when it starts with today's date. |
| DailyRecord.MarkIdempotent | scheduler.py:109-112 | Marking the same task twice on the same day gives the same file as marking it once. |
| DailyRecord.TodayLinesAllKept | scheduler.py:106-107 | Filtering lines that all start with today's date changes nothing. |
| DailyRecord.ContainsExactly | scheduler.py:88 | On lines of the form `date:task` with prefix-free task names, the substring test for a key is the same as finding that key as a whole line. |
| DailyRecord.RecordedIsLineTest | scheduler.py:83-88 | On a record the gate wrote, `has_run_today` is true exactly when `today:name` is one of the file's lines. |
| DailyRecord.MarkKeepsWellFormed | scheduler.py:97-112 | A record made of `date:task` lines stays that way after `mark_run_today`. |
| TaskLock.LockPath | scheduler.py:39-41 | Every lock path ends in `.lock`. A name without `/` gets a lock path under `/tmp/daka_locks/`. |
| TaskLock.LockPathShape | scheduler.py:39-41 | A task name without `/` gets a lock file directly in `/tmp/daka_locks`, named `<name>.lock`, and the name can be read back from the path. |
| TaskLock.LockPathInjective | scheduler.py:39-41 | Distinct plain task names never share a lock file. |
| TaskLock.LockPathIsNotRecord | scheduler.py:27-41 | No task's lock file is the daily record file. |
| TaskLock.AcquireLock | scheduler.py:44-62 | Acquisition succeeds exactly when the lock is not held, and the lock is held afterwards in either case. |
| TaskLock.ReleaseLock | scheduler.py:65-72 | After a release the lock is not held, every other held lock still is, and releasing a lock that is not held is not an error. |
| TaskLock.AcquireThenRelease | scheduler.py:44-72 | A successful acquisition followed by a release restores the held set. |
| TaskGate.TaskNamesExact | scheduler.py:125 | There are exactly three task names, one per task, and distinct tasks have distinct names. |
| TaskGate.TaskNamesSafe | scheduler.py:159 | The task names are plain file names, contain no line break or `:`, and none is a prefix of another, so the record's substring test cannot confuse them. |
| TaskGate.RunGated | scheduler.py:75-187 | The gate stops at the record exactly when the task is marked under the date read before the body. It is busy exactly when the task is not marked and its lock is held. It marks the day exactly when the body returned normally, under the date read after the body. It leaves the held locks unchanged unless the body is still running. |
| TaskGate.RunCheckinTask | scheduler.py:118-154 | The check-in gate, under the name `checkin_<kind>`. It stops exactly when that name is recorded for the check date. After a normal return on a readable record, the name is recorded for the mark date exactly when that date has no `\r`, as every `strftime` date does. Any other outcome leaves the record untouched. |
| TaskGate.RunDailyReportTask | scheduler.py:157-187 | The report gate, under the name `daily_report`. It stops exactly when that name is recorded for the check date. After a normal return on a readable record, the name is recorded for the mark date exactly when that date has no `\r`, as every `strftime` date does. Any other outcome leaves the record untouched. |
| TaskGate.RerunStopsAtRecord | scheduler.py:75-154 | On any readable record, and for a date and task name without `\r`, a run of a task directly after a normal run of it on the same day stops at the record and changes nothing. `DailyRecord.CarriageReturnNeverRecorded` covers names with `\r`. |
| TaskGate.OtherMarkKeepsRecorded | scheduler.py:97-112 | On a gate-written record, marking another task on the same day keeps an already recorded task recorded. |
| TaskGate.StepKeepsDone | scheduler.py:118-187 | On a gate-written record, a same-day gated run of any of the three tasks keeps the record gate-written and a recorded task recorded. A run of that task stops at the record. |
| TaskGate.StaysDone | scheduler.py:118-187 | On a gate-written record, a recorded task stays recorded through any sequence of same-day gated runs of the three tasks. Every run of it in that sequence stops at the record. |
| TaskGate.AtMostOncePerDay | scheduler.py:118-187 | After a normal run of a task on a gate-written record, every later gated run of it that day stops at the record. This holds whatever other tasks ran in between and whatever the bodies do. |
| TaskGate.MidnightRunForgetsCheckDay | scheduler.py:82-112 | When the body returns after midnight, the mark prunes every line of the day the run started on. On a gate-written record, no task then counts as done on that day. |
| TaskGate.MarkingOneTaskLeavesOthers | scheduler.py:97-112 | On a gate-written record, marking one task never makes another task look done. |
| TaskGate.EarlierDayDoesNotCount | scheduler.py:75-112 | On a gate-written record, a task marked on another day is not done today, whatever the record held before, since the write prunes every line of other days. |
| ReportPage.GenerateQueries | auto_daily_report.py:321-335 | Only the last "generate report" selector is sent with the `xpath=` prefix. |
| ReportPage.FirstMatch | auto_daily_report.py:321-352 | The selectors are tried in order, and the chosen one is the first whose wait finds an element. There is none exactly when no wait finds one. |
| ReportPage.CheckSubmitted | auto_daily_report.py:198-248 | The check is true exactly when the "recent" tab wait did not time out, the report-date element was found, and its text equals today's date. It clicks only the tab and the refresh button. |
| ReportPage.CompletionPolls | auto_daily_report.py:402-412 | The completion toast is polled between 1 and 60 times, up to and including the first poll that finds it. |
| ReportPage.SubmitStep | auto_daily_report.py:418-444 | The submit step succeeds exactly when the submit button was found and the success-toast wait did not return `None`. It clicks submit exactly when the button was found, and makes no other click. |
| ReportPage.GenerateStep | auto_daily_report.py:364-444 | Once today's report is known not to be shown, the flow succeeds exactly when the AI-button wait does not time out and the submit step succeeds. It clicks submit only after the AI button was waited for without a timeout and the submit button was found. |
| ReportPage.SubmitDailyReport | auto_daily_report.py:250-362 | The navigation clicks come first. Without a "generate report" button the flow fails after them. Otherwise it next clicks the first button found. When today's report is already shown, it succeeds after only the navigation, that click and the submitted-check's clicks, with no AI or submit click. |
| ReportPage.SubmitOkIff | auto_daily_report.py:250-453 | The flow succeeds exactly when a "generate report" button was found and either today's report is already shown, or the AI step did not time out and the submit button was found and clicked. |
| ReportPage.NoGenerateButtonFails | auto_daily_report.py:345-352 | Without a "generate report" button the flow fails, having clicked neither the AI button nor the submit button. |
| ReportPage.AlreadySubmittedSkips | auto_daily_report.py:359-362 | When today's report is already shown, the flow succeeds without generating or submitting. |
| ReportPage.CompletionTimeoutHarmless | auto_daily_report.py:400-416 | The result does not depend on the completion toast: running out of polls still goes on to submit. |
| ReportPage.SubmitOnlyWhenNotYetSubmitted | auto_daily_report.py:355-444 | The submit button is clicked only when today's report was not shown and the AI step did not time out. |
| ReportPage.SubmittedMeansSuccess | auto_daily_report.py:418-444 | Once submit has been clicked, the flow succeeds unless the success-toast wait returns `None`. A timeout there also counts as success. |
| ReportPage.ThirdPollCompletes | auto_daily_report.py:402-412 | A completion toast on the third poll stops the polling after three polls, and the report goes through. |
| ReportLogin.RetryLoop | auto_daily_report.py:119-192 | The loop never fails. It ends at the first attempt that submitted a captcha and left the login URL, and it keeps trying when there is no such attempt. |
| ReportLogin.LoginUnlimited | auto_daily_report.py:104-196 | Login gives false exactly when the login page could not be opened. |
| ReportLogin.LoginSucceedsIff | auto_daily_report.py:104-196 | Login succeeds exactly when the page opened and some attempt submitted a non-empty captcha and left the login URL. |
| ReportLogin.SubmitsOnlyWithCaptcha | auto_daily_report.py:141-159 | The form is submitted once for each attempt with a non-empty captcha, up to the successful one. The page is reloaded once for each attempt whose captcha came back empty. |
| ReportMain.Run | auto_daily_report.py:455-499 | `run` is still pending exactly while the login loop is. The report flow is entered exactly after a successful login. The result is true exactly when that flow succeeded. |
| ReportMain.RunOkIff | auto_daily_report.py:455-499 | `run` returns true exactly when the browser launched, the login page opened, some attempt logged in, and the report flow succeeded. |
| ReportMain.ResolveCredentials | auto_daily_report.py:569-584 | `main` gives up exactly when the username or password is empty and there are fewer than three command-line arguments. Otherwise it takes the configured pair, or else `argv[1]` and `argv[2]` together. |
| ReportMain.Setting | auto_daily_report.py:569-574 | A non-empty config value is used. Otherwise the environment variable is used, or `''` when it is unset. |
| ReportMain.ArgvReplacesBoth | auto_daily_report.py:576-580 | A configured username is discarded when the password is missing and arguments are given. |
| ReportMain.SettingPrecedence | auto_daily_report.py:557-574 | A non-empty value in `config.json` wins over the environment, which wins over the empty default. A missing or malformed config counts as empty. |
| ReportMain.Notification | auto_daily_report.py:517-541 | Nothing is posted exactly when the app token or the uid is empty. Otherwise the request is Markdown, with the title as summary and the one uid. |
| ReportMain.NotificationContent | auto_daily_report.py:531-541 | The posted content is a level-one heading with the title and a blank line, and the message can be read back from it. |
| ReportMain.Main | auto_daily_report.py:555-635 | `main` returns quietly exactly without credentials. It returns with a success notice after a successful run, and raises `SystemExit(1)` with a failure notice after a failed run. A notice exists exactly when the WxPusher settings are non-empty. |
| ReportMain.NoCredentialsIsQuiet | auto_daily_report.py:576-584 | Whenever credentials cannot be resolved, `main` returns without using the browser, whatever the browser would have done. This includes a configured username with no password and no command-line pair. |
| Schedule.ReportBody | scheduler.py:175-187 | For the gate, `report_main` returns normally both without credentials and after success, and raises `SystemExit` with its code after a failure. |
| Schedule.NoCredentialsMarksDone | scheduler.py:175-187 | Without credentials the gate records the daily report as done for the mark date, which holds for every date without `\r`, and releases its lock. |
| Schedule.FailedReportNotMarked | scheduler.py:175-187 | A failed report run leaves the record unchanged, releases the lock, and lets `SystemExit(1)` out of the task. The gate's Beijing dates and the report program's local date are separate. |
| Schedule.ParseInt | scheduler.py:215-220 | `int()` accepts exactly ASCII digits with an optional leading sign. Plain digits give their non-negative value. A signed number gives the digits' value, negated after a `-`. |
| Schedule.EnvInt | scheduler.py:215-220 | An unset variable gives its default. A set variable gives its parsed value, or `None` (a `ValueError`) when it does not parse. |
| Schedule.ParseDecimal | scheduler.py:215-220 | `int()` reads back any number written in decimal. |
| Schedule.Jobs | scheduler.py:215-250 | No job is registered exactly when one of the six time variables is set and does not parse. Otherwise there are three jobs: morning check-in, evening check-in and daily report. Each fires at its hour and minute setting and has a misfire grace of 300 seconds. |
| Schedule.DefaultSchedule | scheduler.py:215-250 | Without overrides the jobs fire at 08:00, 17:00 and 17:30. |
| Schedule.OverrideMorningHour | scheduler.py:215-230 | Setting `MORNING_CHECKIN_HOUR` moves only the morning check-in. |
| Schedule.RunOnStartup | scheduler.py:212 | An unset `RUN_ON_STARTUP` means off, and an enabling value has four characters. |
| Schedule.RunOnStartupValues | scheduler.py:212 | For every environment, `RUN_ON_STARTUP` is on exactly when it is set to the four letters of `true`, each in either case. |
| Schedule.StartupKind | scheduler.py:273-281 | On startup the morning check-in runs exactly from 06:00 to 16:59, and the evening one at other hours. |
| Schedule.StartScheduler | scheduler.py:200-297 | A time variable that does not parse ends the process with status 1 before any run. Without `RUN_ON_STARTUP`, nothing runs before scheduling. With it, the first run is the gated check-in chosen by the hour. A second run is the gated daily report, starting from the state the check-in left. |
| Schedule.ReportFollowsCheckin | scheduler.py:271-285 | On startup the report runs exactly when the check-in run neither raised `SystemExit` nor is still running. |
| Schedule.StartupReportFailureStops | scheduler.py:283-312 | A daily report that fails on startup ends the process with status 1 before the scheduler starts. |

## Left out

- Locks:
  - `flock` semantics across processes and the PID written into the lock file are not modelled. A set of held names stands for the locked files.
  - The file descriptor that `acquire_lock` never closes is not modelled.
  - An error while opening a lock file is read as "busy", like a held lock.
- Record file:
  - A failing `write_text` is not modelled; only a failing read is. The write is caught and logged in the source.
  - Reads go through `Text.ReadText`, the universal-newline translation of `read_text`. The file's encoding is not modelled: text is a sequence of code points.
  - Only the read of `has_run_today` and `mark_run_today` can fail.
- `TaskLock.LockPath` models only pathlib's "an absolute file name replaces the directory" rule. Names with `..` or `/` elsewhere are not normalised.
- Clocks and timezones are parameters:
  - the gate's Beijing date (`get_today_date`, scheduler.py:34-36);
  - the report's local date (auto_daily_report.py:226);
  - the startup hour and the notice's date and time.
- Browser:
  - Clicks, fills, reloads, sleeps and `evaluate_handle` are assumed not to raise. Only waits for selectors can fail.
  - The login button versus the Enter key, and the "我知道了" popup, do not affect the result, so they are one `Submit` step.
- The captcha solver is an oracle answer inside `Attempt`. It stands for reading the captcha image's base64 `src` attribute, decoding it, and running OCR (auto_daily_report.py:57-102).
- HTTP: only the request `send_notification` posts is modelled. The response and the network errors it catches are not.
- The APScheduler runtime is not modelled:
  - cron firing, misfire grace behaviour and executor threads;
  - the executor catching `SystemExit` from a scheduled job;
  - range validation of `CronTrigger` values.
- Other `start_scheduler` and `__main__` details: the signal handlers, the `apscheduler` import failure, and logging are left out.
- `auto_checkin`, the check-in program, is not part of this model. Its `main` is the check-in gate's body outcome.
- `config.json` is taken to be a JSON object whose values are strings. A top-level array would make `config.get` raise, and non-string values pass through `or` differently. Read errors other than a missing file or invalid JSON are not modelled.
- `GITHUB_ACTIONS` and the headless flag do not change behaviour and are omitted.
- `Schedule.ParseInt` accepts an optional sign followed by ASCII digits. Python's `int()` also strips whitespace, allows `_` between digits, and accepts non-ASCII digits; those inputs are not modelled.
- `Schedule.RunOnStartupValues` lowers only ASCII letters. Python's `str.lower` handles all of Unicode, and no other letter can lower to `true`.
- `ReportLogin.RetryLoop` is modelled over a finite list of attempts, because the source loop has no bound. "Never gives up" shows up as `StillTrying` at the end of the list.
- `ReportMain.Main`: the exact notice texts are in `SuccessMessage` and `FailureMessage`, but the contract states only the titles and when a notice is sent.

=== FILE: daily_record.dfy ===
/**
 The once-per-day record of the task gate (`scheduler.py`): a text file of
 `YYYY-MM-DD:task_name` lines. Reading it is a substring test on the whole
 content; writing it prunes every line not of today and appends the new
 key. The file is a value here and `today` a parameter (the gate's clock).
 */
module DailyRecord {
  import opened Text

  /** The record file as `has_run_today` / `mark_run_today` find it: absent,
      present but raising on read, or present with the text last written to
      it. Reading goes through `ReadText`. */
  datatype RecordFile = Missing | Unreadable | Present(content: string)

  predicate IsDigit(c: char) {
    '0' <= c <= '9'
  }

  /** The shape `strftime('%Y-%m-%d')` produces. */
  predicate IsIsoDate(d: string) {
    && |d| == 10
    && d[4] == '-' && d[7] == '-'
    && forall k :: 0 <= k < 10 && k != 4 && k != 7 ==> IsDigit(d[k])
  }

  lemma IsoDateNoReturn(d: string)
    requires IsIsoDate(d)
    ensures '\r' !in d
  {
  }

  /** `f"{today}:{task_name}"` */
  function RecordKey(today: string, name: string): string {
    today + ":" + name
  }

  /** What `has_run_today` answers: the file exists, reads, and the text
      read contains the key anywhere (a substring test, not a line test). */
  predicate Recorded(file: RecordFile, today: string, name: string) {
    file.Present? && Contains(ReadText(file.content), RecordKey(today, name))
  }

  /** `has_run_today`: a read error counts as "not run". */
  method HasRunToday(file: RecordFile, today: string, name: string) returns (r: bool)
    ensures r <==> Recorded(file, today, name)
  {
    r := false;
    if !file.Present? {
      return;
    }
    var content := ReadText(file.content);
    var key := RecordKey(today, name);
    if |key| > |content| {
      return;
    }
    var i := 0;
    while i <= |content| - |key|
      invariant 0 <= i <= |content| - |key| + 1
      invariant forall j :: 0 <= j < i ==> !OccursAt(content, key, j)
    {
      if content[i..i + |key|] == key {
        assert OccursAt(content, key, i);
        r := true;
        return;
      }
      i := i + 1;
    }
  }

  /** `[l for l in lines if l.startswith(today)]` */
  function TodayLines(lines: seq<string>, today: string): (kept: seq<string>)
    ensures |kept| <= |lines|
    ensures forall k :: 0 <= k < |kept| ==> StartsWith(kept[k], today)
    ensures forall l :: l in kept <==> l in lines && StartsWith(l, today)
    ensures forall l :: multiset(kept)[l] == if StartsWith(l, today) then multiset(lines)[l] else 0
  {
    if |lines| == 0 then []
    else
      var rest := TodayLines(lines[1..], today);
      assert lines == [lines[0]] + lines[1..];
      assert forall l :: l in lines <==> l == lines[0] || l in lines[1..];
      if StartsWith(lines[0], today) then [lines[0]] + rest else rest
  }

  /** `if record_key not in lines: lines.append(record_key)` */
  function WithKey(lines: seq<string>, key: string): seq<string> {
    if key in lines then lines else lines + [key]
  }

  /** The lines `mark_run_today` starts from: today's lines of the old
      content as read, or none when the file does not exist. */
  function KeptLines(file: RecordFile, today: string): seq<string>
    requires !file.Unreadable?
  {
    if file.Missing? then [] else TodayLines(SplitLines(ReadText(file.content)), today)
  }

  /** Single lines joined with `'\n'` read back as written. */
  lemma PlainReadsBack(lines: seq<string>)
    requires forall k :: 0 <= k < |lines| ==> NoBreak(lines[k])
    ensures ReadText(JoinLines(lines)) == JoinLines(lines)
  {
    forall k | 0 <= k < |lines|
      ensures '\r' !in lines[k]
    {
      NoBreakNoReturn(lines[k]);
    }
    JoinReadsBack(lines);
  }

  /** The kept lines are single lines. */
  lemma KeptLinesNoBreak(file: RecordFile, today: string)
    requires !file.Unreadable?
    ensures forall l :: l in KeptLines(file, today) ==> NoBreak(l) && '\r' !in l
  {
    forall l | l in KeptLines(file, today)
      ensures NoBreak(l) && '\r' !in l
    {
      var lines := SplitLines(ReadText(file.content));
      assert l in lines;
      var j :| 0 <= j < |lines| && lines[j] == l;
      NoBreakNoReturn(l);
    }
  }

  /** `mark_run_today`: rewrite the file as today's old lines plus the key,
      joined with `'\n'`. A read error is caught and leaves the file as it
      was. */
  function MarkRunToday(file: RecordFile, today: string, name: string): (r: RecordFile)
    ensures file.Unreadable? <==> r.Unreadable?
    ensures !file.Unreadable? ==> r.Present?
  {
    if file.Unreadable? then file
    else Present(JoinLines(WithKey(KeptLines(file, today), RecordKey(today, name))))
  }

  /** A key holding `\r` is never found: `read_text` turns every `\r` into
      `\n`, so `has_run_today` answers false whatever the file holds. */
  lemma CarriageReturnNeverRecorded(file: RecordFile, today: string, name: string)
    requires '\r' in today || '\r' in name
    ensures !Recorded(file, today, name)
  {
    var key := RecordKey(today, name);
    var j: int;
    if '\r' in today {
      j :| 0 <= j < |today| && today[j] == '\r';
      assert key[j] == today[j];
    } else {
      var m :| 0 <= m < |name| && name[m] == '\r';
      j := |today| + 1 + m;
      assert key[j] == name[m];
    }
    if Recorded(file, today, name) {
      var read := ReadText(file.content);
      ReadTextHasNoReturn(file.content);
      var i :| 0 <= i <= |read| - |key| && OccursAt(read, key, i);
      OccurrenceChar(read, key, i, i + j);
    }
  }

  /** After a write the record shows the task as run today exactly when
      neither the date nor the task name holds `\r`: only then does the
      text written read back as it was written. */
  lemma MarkThenRecorded(file: RecordFile, today: string, name: string)
    requires !file.Unreadable?
    ensures Recorded(MarkRunToday(file, today, name), today, name) <==> '\r' !in today && '\r' !in name
  {
    if '\r' in today || '\r' in name {
      CarriageReturnNeverRecorded(MarkRunToday(file, today, name), today, name);
    } else {
      var key := RecordKey(today, name);
      assert '\r' !in key;
      var lines := WithKey(KeptLines(file, today), key);
      KeptLinesNoBreak(file, today);
      assert forall k :: 0 <= k < |lines| ==> '\r' !in lines[k] by {
        forall k | 0 <= k < |lines|
          ensures '\r' !in lines[k]
        {
          if lines[k] != key {
            assert lines[k] in KeptLines(file, today);
          }
        }
      }
      JoinReadsBack(lines);
      var k :| 0 <= k < |lines| && lines[k] == key;
      JoinContainsLine(lines, k);
    }
  }

  lemma KeyIsLine(today: string, name: string)
    requires IsIsoDate(today) && NoBreak(name)
    ensures RecordKey(today, name) != "" && NoBreak(RecordKey(today, name))
    ensures StartsWith(RecordKey(today, name), today)
  {
    var key := RecordKey(today, name);
    assert key[..|today|] == today;
    forall k | 0 <= k < |key|
      ensures !IsLineBreak(key[k])
    {
      if k < 10 {
        assert key[k] == today[k];
      } else if k > 10 {
        assert key[k] == name[k - 11];
      }
    }
  }

  lemma WithKeyPlain(lines: seq<string>, today: string, name: string)
    requires IsIsoDate(today) && NoBreak(name)
    requires forall k :: 0 <= k < |lines| ==> NoBreak(lines[k]) && StartsWith(lines[k], today)
    ensures PlainLines(WithKey(lines, RecordKey(today, name)))
    ensures forall l :: l in WithKey(lines, RecordKey(today, name)) ==> StartsWith(l, today)
  {
    KeyIsLine(today, name);
  }

  /** The lines of the rewritten file are exactly today's old lines, in
      their old order, followed by the key when it was not among them. */
  lemma MarkedLines(file: RecordFile, today: string, name: string)
    requires !file.Unreadable?
    requires IsIsoDate(today) && NoBreak(name)
    ensures var key := RecordKey(today, name);
            var old_ := KeptLines(file, today);
            SplitLines(MarkRunToday(file, today, name).content)
              == if key in old_ then old_ else old_ + [key]
  {
    WithKeyPlain(KeptLines(file, today), today, name);
    SplitJoin(WithKey(KeptLines(file, today), RecordKey(today, name)));
  }

  /** Every line of a rewritten record starts with the date it was written
      on. */
  lemma MarkedLinesAreToday(file: RecordFile, today: string, name: string)
    requires !file.Unreadable?
    requires IsIsoDate(today) && NoBreak(name)
    ensures forall l :: l in SplitLines(MarkRunToday(file, today, name).content) ==> StartsWith(l, today)
  {
    MarkedLines(file, today, name);
    WithKeyPlain(KeptLines(file, today), today, name);
  }

  /** Prior-day records never survive a write: every line of the new
      content starts with today's date, and a line of the old content
      survives exactly when it starts with today's date (or is the key). */
  lemma OnlyTodaySurvives(file: RecordFile, today: string, name: string)
    requires file.Present?
    requires IsIsoDate(today) && NoBreak(name)
    ensures var lines := SplitLines(MarkRunToday(file, today, name).content);
            && (forall k :: 0 <= k < |lines| ==> StartsWith(lines[k], today))
            && (forall l :: l in lines <==>
                  (l in SplitLines(ReadText(file.content)) && StartsWith(l, today)) || l == RecordKey(today, name))
  {
    MarkedLines(file, today, name);
    WithKeyPlain(KeptLines(file, today), today, name);
  }

  /** Marking the same task twice on the same day writes the same content. */
  lemma MarkIdempotent(file: RecordFile, today: string, name: string)
    requires IsIsoDate(today) && NoBreak(name)
    ensures MarkRunToday(MarkRunToday(file, today, name), today, name)
         == MarkRunToday(file, today, name)
  {
    if !file.Unreadable? {
      var key := RecordKey(today, name);
      var lines := WithKey(KeptLines(file, today), key);
      var once := MarkRunToday(file, today, name);
      WithKeyPlain(KeptLines(file, today), today, name);
      SplitJoin(lines);
      PlainReadsBack(lines);
      assert SplitLines(ReadText(once.content)) == lines;
      TodayLinesAllKept(lines, today);
      assert KeptLines(once, today) == lines;
      assert key in lines;
    }
  }

  lemma {:induction false} TodayLinesAllKept(lines: seq<string>, today: string)
    requires forall l :: l in lines ==> StartsWith(l, today)
    ensures TodayLines(lines, today) == lines
  {
    if |lines| > 0 {
      assert lines[0] in lines;
      TodayLinesAllKept(lines[1..], today);
      assert lines == [lines[0]] + lines[1..];
    }
  }

  /* ---- Exactness of the substring test on records the gate writes ---- */

  /** Task names that cannot confuse the substring test: single lines
      without `:`, none a proper prefix of another. */
  predicate SafeNames(names: set<string>) {
    && (forall n :: n in names ==> NoBreak(n) && ':' !in n)
    && (forall n, m :: n in names && m in names && StartsWith(n, m) ==> n == m)
  }

  /** A line of the shape the gate writes: a date, `:`, a known name. */
  predicate RecordLine(l: string, names: set<string>) {
    |l| >= 11 && IsIsoDate(l[..10]) && l[10] == ':' && l[11..] in names
  }

  /** A record file holding only gate-shaped lines joined by `'\n'`. */
  predicate WellFormedRecord(file: RecordFile, names: set<string>) {
    || file.Missing?
    || (&& file.Present?
        && JoinLines(SplitLines(file.content)) == file.content
        && forall k :: 0 <= k < |SplitLines(file.content)| ==> RecordLine(SplitLines(file.content)[k], names))
  }

  /** A gate-written record reads back as it was written. */
  lemma WellFormedReadsBack(file: RecordFile, names: set<string>)
    requires WellFormedRecord(file, names) && file.Present?
    ensures ReadText(file.content) == file.content
  {
    PlainReadsBack(SplitLines(file.content));
  }

  lemma RecordLineShape(l: string, names: set<string>)
    requires RecordLine(l, names) && SafeNames(names)
    ensures l != "" && NoBreak(l)
    ensures forall k :: 0 <= k < |l| && l[k] == ':' ==> k == 10
  {
    var n := l[11..];
    assert NoBreak(n) && ':' !in n;
    forall k | 0 <= k < |l|
      ensures !IsLineBreak(l[k]) && (l[k] == ':' ==> k == 10)
    {
      if k < 10 {
        assert l[k] == l[..10][k];
      } else if k > 10 {
        assert l[k] == n[k - 11];
      }
    }
  }

  /** Inside one gate-shaped line the key can only occur as the whole line. */
  lemma OccurrenceIsWholeLine(l: string, key: string, names: set<string>, i: int)
    requires SafeNames(names) && RecordLine(l, names) && RecordLine(key, names)
    requires OccursAt(l, key, i)
    ensures l == key
  {
    RecordLineShape(l, names);
    assert l[i + 10] == key[10];
    assert i == 0;
    var n := l[11..];
    var m := key[11..];
    assert n[..|m|] == l[11..|key|] == m;
    assert StartsWith(n, m);
    assert n == m;
    assert l == l[..11] + n;
    assert key == key[..11] + m;
  }

  lemma OccurrenceChar(s: string, t: string, i: int, p: int)
    requires OccursAt(s, t, i) && i <= p < i + |t|
    ensures s[p] == t[p - i]
  {
    assert s[i..i + |t|][p - i] == s[p];
  }

  /** An occurrence in `a + "\n" + b` of a key without line breaks lies in
      `a` or in `b`. */
  lemma OccurrenceSplits(a: string, b: string, key: string, i: int)
    requires NoBreak(key)
    requires OccursAt(a + "\n" + b, key, i)
    ensures OccursAt(a, key, i) || OccursAt(b, key, i - |a| - 1)
  {
    var s := a + "\n" + b;
    if i <= |a| < i + |key| {
      OccurrenceChar(s, key, i, |a|);
      assert false;
    } else if i + |key| <= |a| {
      assert s[i..i + |key|] == a[i..i + |key|];
    } else if i > |a| {
      assert s[|a| + 1..] == b;
      assert s[i..i + |key|] == b[i - |a| - 1..i - |a| - 1 + |key|];
    }
  }

  lemma {:induction false} ContainsExactly(lines: seq<string>, key: string, names: set<string>)
    requires SafeNames(names) && RecordLine(key, names)
    requires forall k :: 0 <= k < |lines| ==> RecordLine(lines[k], names)
    ensures Contains(JoinLines(lines), key) <==> key in lines
    decreases |lines|
  {
    RecordLineShape(key, names);
    if key in lines {
      var k :| 0 <= k < |lines| && lines[k] == key;
      JoinContainsLine(lines, k);
    } else if Contains(JoinLines(lines), key) {
      var s := JoinLines(lines);
      var i :| 0 <= i <= |s| - |key| && OccursAt(s, key, i);
      if |lines| == 1 {
        OccurrenceIsWholeLine(lines[0], key, names, i);
      } else {
        var rest := JoinLines(lines[1..]);
        assert s == lines[0] + "\n" + rest;
        OccurrenceSplits(lines[0], rest, key, i);
        if OccursAt(lines[0], key, i) {
          OccurrenceIsWholeLine(lines[0], key, names, i);
        } else {
          assert OccursAt(rest, key, i - |lines[0]| - 1);
          ContainsExactly(lines[1..], key, names);
        }
      }
    }
  }

  /** On a record written by the gate, the substring test is a line test:
      the task counts as run today exactly when `today:name` is one of the
      lines. So a record from another day never satisfies it. */
  lemma RecordedIsLineTest(file: RecordFile, today: string, name: string, names: set<string>)
    requires SafeNames(names) && name in names && IsIsoDate(today)
    requires WellFormedRecord(file, names)
    ensures Recorded(file, today, name) <==>
              file.Present? && RecordKey(today, name) in SplitLines(file.content)
  {
    var key := RecordKey(today, name);
    assert key[..10] == today && key[11..] == name;
    if file.Present? {
      WellFormedReadsBack(file, names);
      ContainsExactly(SplitLines(file.content), key, names);
    }
  }

  /** The old lines `mark_run_today` keeps from a gate-written record are
      gate-shaped. */
  lemma KeptLinesAreRecordLines(file: RecordFile, today: string, names: set<string>)
    requires WellFormedRecord(file, names)
    ensures forall l :: l in KeptLines(file, today) ==> RecordLine(l, names)
  {
    if file.Present? {
      WellFormedReadsBack(file, names);
      var lines := SplitLines(file.content);
      forall l | l in KeptLines(file, today)
        ensures RecordLine(l, names)
      {
        assert l in lines;
        var j :| 0 <= j < |lines| && lines[j] == l;
      }
    }
  }

  /** Gate-shaped lines that split back from their join make a gate-written
      record. */
  lemma JoinedRecordWellFormed(lines: seq<string>, names: set<string>)
    requires forall k :: 0 <= k < |lines| ==> RecordLine(lines[k], names)
    requires SplitLines(JoinLines(lines)) == lines
    ensures WellFormedRecord(Present(JoinLines(lines)), names)
  {
  }

  /** Every line `mark_run_today` writes is gate-shaped. */
  lemma MarkedLinesAreRecordLines(file: RecordFile, today: string, name: string, names: set<string>)
    requires SafeNames(names) && name in names && IsIsoDate(today)
    requires WellFormedRecord(file, names)
    ensures var lines := WithKey(KeptLines(file, today), RecordKey(today, name));
            forall k :: 0 <= k < |lines| ==> RecordLine(lines[k], names)
  {
    var key := RecordKey(today, name);
    assert key[..10] == today && key[11..] == name;
    assert RecordLine(key, names);
    var lines := WithKey(KeptLines(file, today), key);
    KeptLinesAreRecordLines(file, today, names);
    forall k | 0 <= k < |lines|
      ensures RecordLine(lines[k], names)
    {
      if lines[k] != key {
        assert lines[k] in KeptLines(file, today);
      }
    }
  }

  /** `mark_run_today` keeps a gate-written record gate-written. */
  lemma MarkKeepsWellFormed(file: RecordFile, today: string, name: string, names: set<string>)
    requires SafeNames(names) && name in names && IsIsoDate(today)
    requires WellFormedRecord(file, names)
    ensures WellFormedRecord(MarkRunToday(file, today, name), names)
  {
    var lines := WithKey(KeptLines(file, today), RecordKey(today, name));
    MarkedLinesAreRecordLines(file, today, name, names);
    MarkedLines(file, today, name);
    assert MarkRunToday(file, today, name) == Present(JoinLines(lines));
    JoinedRecordWellFormed(lines, names);
  }

}

=== FILE: options.dfy ===
/** A result that may be absent: a selector that matched nothing, a
    setting that did not parse, credentials that were not found. */
module Options {

  datatype Option<T> = Some(value: T) | None {

    /** The carried value, falling back to `otherwise` when absent. */
    function GetOr(otherwise: T): T {
      if Some? then value else otherwise
    }

    /** Zero or one elements, for appending an optional step to a trace. */
    function ToSeq(): seq<T> {
      if Some? then [value] else []
    }
  }
}

=== FILE: report_login.dfy ===
/**
 `login_unlimited` of `auto_daily_report.py`: open the login page once,
 then retry forever: fill the form, solve the captcha, submit, and succeed
 as soon as the page is no longer at the login URL. The browser's answers
 to the attempts are a sequence; when it runs out the loop is still going.
 */
module ReportLogin {

  /** `self.login_url` */
  const LoginUrl: string := "https://qd.dxssxdk.com/lanhu_yonghudenglu"

  /** One pass of the retry loop as the browser answers it: the form was
      not usable (a wait or fill raised), or it was filled, the captcha
      solver produced `captcha`, and the page was at `urlAfter` once the
      attempt settled. */
  datatype Attempt = FormMissing | Filled(captcha: string, urlAfter: string)

  /** What an attempt does to the site: reload the page after an empty
      captcha, or submit the form. */
  datatype LoginStep = Reload | Submit

  datatype LoginResult =
    | GotoFailed                                        // opening the login page raised: `False`
    | LoggedIn(url: string, index: nat, steps: seq<LoginStep>)  // `True` after attempt `index`
    | StillTrying(steps: seq<LoginStep>)                // no success among the attempts given

  /** An attempt submits the form exactly when the captcha text is not empty. */
  predicate Submits(a: Attempt) {
    a.Filled? && a.captcha != ""
  }

  /** An attempt ends the loop: it submitted and the page left the login URL. */
  predicate Succeeds(a: Attempt) {
    Submits(a) && a.urlAfter != LoginUrl
  }

  function CountSubmits(steps: seq<LoginStep>): nat {
    if |steps| == 0 then 0 else (if steps[0] == Submit then 1 else 0) + CountSubmits(steps[1..])
  }

  function CountSubmitting(attempts: seq<Attempt>): nat {
    if |attempts| == 0 then 0 else (if Submits(attempts[0]) then 1 else 0) + CountSubmitting(attempts[1..])
  }

  function CountReloads(steps: seq<LoginStep>): nat {
    if |steps| == 0 then 0 else (if steps[0] == Reload then 1 else 0) + CountReloads(steps[1..])
  }

  /** Attempts whose form was filled but whose captcha came back empty. */
  function CountEmptyCaptcha(attempts: seq<Attempt>): nat {
    if |attempts| == 0 then 0
    else (if attempts[0].Filled? && attempts[0].captcha == "" then 1 else 0) + CountEmptyCaptcha(attempts[1..])
  }

  function Prepend(step: LoginStep, r: LoginResult): LoginResult
    requires !r.GotoFailed?
  {
    match r
    case LoggedIn(url, index, steps) => LoggedIn(url, index + 1, [step] + steps)
    case StillTrying(steps) => StillTrying([step] + steps)
  }

  function Shift(r: LoginResult): LoginResult
    requires !r.GotoFailed?
  {
    match r
    case LoggedIn(url, index, steps) => LoggedIn(url, index + 1, steps)
    case StillTrying(steps) => r
  }

  /** The `while True` loop over the given attempts. It never gives up: the
      result is the first successful attempt, or still trying. */
  function RetryLoop(attempts: seq<Attempt>): (r: LoginResult)
    ensures !r.GotoFailed?
    ensures r.LoggedIn? ==> && r.index < |attempts|
                            && Succeeds(attempts[r.index])
                            && r.url == attempts[r.index].urlAfter
                            && forall j :: 0 <= j < r.index ==> !Succeeds(attempts[j])
    ensures r.StillTrying? ==> forall j :: 0 <= j < |attempts| ==> !Succeeds(attempts[j])
  {
    if |attempts| == 0 then StillTrying([])
    else
      match attempts[0]
      case FormMissing => Shift(RetryLoop(attempts[1..]))
      case Filled(captcha, urlAfter) =>
        if captcha == "" then Prepend(Reload, RetryLoop(attempts[1..]))
        else if urlAfter != LoginUrl then LoggedIn(urlAfter, 0, [Submit])
        else Prepend(Submit, RetryLoop(attempts[1..]))
  }

  /** `login_unlimited` */
  function LoginUnlimited(gotoOk: bool, attempts: seq<Attempt>): (r: LoginResult)
    ensures r.GotoFailed? <==> !gotoOk
  {
    if gotoOk then RetryLoop(attempts) else GotoFailed
  }

  /** Login succeeds exactly when the login page opened and some attempt
      submitted a captcha and left the login URL. */
  lemma LoginSucceedsIff(gotoOk: bool, attempts: seq<Attempt>)
    ensures LoginUnlimited(gotoOk, attempts).LoggedIn? <==>
              gotoOk && exists j :: 0 <= j < |attempts| && Succeeds(attempts[j])
  {
  }

  /** The form is submitted once per attempt with a non-empty captcha, up to
      and including the successful one; an attempt with an empty captcha
      reloads the page once instead. */
  lemma {:induction false} SubmitsOnlyWithCaptcha(attempts: seq<Attempt>)
    ensures var r := RetryLoop(attempts);
            && (r.LoggedIn? ==> && CountSubmits(r.steps) == CountSubmitting(attempts[..r.index + 1])
                                && CountReloads(r.steps) == CountEmptyCaptcha(attempts[..r.index + 1]))
            && (r.StillTrying? ==> && CountSubmits(r.steps) == CountSubmitting(attempts)
                                   && CountReloads(r.steps) == CountEmptyCaptcha(attempts))
  {
    if |attempts| > 0 {
      var rest := RetryLoop(attempts[1..]);
      SubmitsOnlyWithCaptcha(attempts[1..]);
      var r := RetryLoop(attempts);
      if attempts[0].Filled? && !Succeeds(attempts[0]) {
        var step := if attempts[0].captcha == "" then Reload else Submit;
        assert r == Prepend(step, rest);
        assert r.steps[1..] == rest.steps;
      }
      if r.LoggedIn? && !Succeeds(attempts[0]) {
        assert rest.LoggedIn? && r.index == rest.index + 1;
        assert attempts[..r.index + 1] == [attempts[0]] + attempts[1..][..rest.index + 1];
      }
      if r.LoggedIn? && Succeeds(attempts[0]) {
        assert attempts[..r.index + 1] == [attempts[0]];
      }
      if rest.StillTrying? {
        assert attempts == [attempts[0]] + attempts[1..];
      }
    }
  }
}

=== FILE: report_main.dfy ===
/**
 `run`, `send_notification` and `main` of `auto_daily_report.py`:
 credentials from `config.json`, the environment or the command line, one
 browser run (login, then the report), a WxPusher notification, and the
 exit status. The clock, the files, the environment and the browser are
 parameters.
 */
module ReportMain {
  import opened Text
  import opened Options
  import opened ReportPage
  import opened ReportLogin

  /* ---- run ---- */

  /** What the browser does: whether it launches, whether the login page
      opens, the answers to the login attempts, and the report page. */
  datatype Browser = Browser(launches: bool, gotoOk: bool, attempts: seq<Attempt>, page: Page)

  /** `run` returned `ok` (with the report flow, when it was entered), or
      it is still inside the login loop. */
  datatype RunOutcome = Finished(ok: bool, report: Option<Flow>) | Pending

  /** `AutoDailyReport.run`: a browser that fails to launch is caught and
      gives false; the report is submitted only after login succeeds. */
  function Run(b: Browser, today: string): (r: RunOutcome)
    ensures r.Pending? <==> b.launches && LoginUnlimited(b.gotoOk, b.attempts).StillTrying?
    ensures r.Finished? && r.report.Some? <==> b.launches && LoginUnlimited(b.gotoOk, b.attempts).LoggedIn?
    ensures r.Finished? ==> (r.ok <==> r.report.Some? && r.report.value.ok)
    ensures r.Finished? && r.report.Some? ==> r.report.value == SubmitDailyReport(b.page, today)
  {
    if !b.launches then Finished(false, None)
    else
      match LoginUnlimited(b.gotoOk, b.attempts)
      case GotoFailed => Finished(false, None)
      case StillTrying(_) => Pending
      case LoggedIn(_, _, _) =>
        var flow := SubmitDailyReport(b.page, today);
        Finished(flow.ok, Some(flow))
  }

  /** `run` returns true exactly when the browser launched, the login page
      opened, some attempt logged in, and the report flow succeeded. */
  lemma RunOkIff(b: Browser, today: string)
    ensures Run(b, today).Finished? && Run(b, today).ok <==>
              && b.launches && b.gotoOk
              && (exists j :: 0 <= j < |b.attempts| && Succeeds(b.attempts[j]))
              && SubmitDailyReport(b.page, today).ok
  {
    LoginSucceedsIff(b.gotoOk, b.attempts);
  }

  /* ---- credentials ---- */

  /** `config.json`: absent, not valid JSON (both ignored), or its entries. */
  datatype ConfigFile = NoConfigFile | BadJson | ConfigJson(entries: map<string, string>)

  function ConfigEntries(f: ConfigFile): map<string, string> {
    if f.ConfigJson? then f.entries else map[]
  }

  /** `config.get(key) or os.getenv(envName, '')` */
  function Setting(config: map<string, string>, key: string, env: map<string, string>, envName: string): (v: string)
    ensures key in config && config[key] != "" ==> v == config[key]
    ensures !(key in config && config[key] != "") ==> v == (if envName in env then env[envName] else "")
  {
    if key in config && config[key] != "" then config[key]
    else if envName in env then env[envName]
    else ""
  }

  datatype Credentials = Credentials(username: string, password: string, appToken: string, uid: string)

  function Username(f: ConfigFile, env: map<string, string>): string {
    Setting(ConfigEntries(f), "username", env, "CHECKIN_USERNAME")
  }

  function Password(f: ConfigFile, env: map<string, string>): string {
    Setting(ConfigEntries(f), "password", env, "CHECKIN_PASSWORD")
  }

  /** The credentials `main` goes on with, or `None` when it gives up and
      returns. If either the username or the password is still empty, both
      are taken from `argv[1]` and `argv[2]` when there are at least three
      arguments, even if those are empty too. */
  function ResolveCredentials(f: ConfigFile, env: map<string, string>, argv: seq<string>): (r: Option<Credentials>)
    ensures r.None? <==> (Username(f, env) == "" || Password(f, env) == "") && |argv| < 3
    ensures r.Some? && Username(f, env) != "" && Password(f, env) != "" ==>
              r.value.username == Username(f, env) && r.value.password == Password(f, env)
    ensures r.Some? && (Username(f, env) == "" || Password(f, env) == "") ==>
              r.value.username == argv[1] && r.value.password == argv[2]
    ensures r.Some? ==> r.value.appToken == Setting(ConfigEntries(f), "wxpusher_app_token", env, "WXPUSHER_APP_TOKEN")
    ensures r.Some? ==> r.value.uid == Setting(ConfigEntries(f), "wxpusher_uid", env, "WXPUSHER_UID")
  {
    var config := ConfigEntries(f);
    var username := Username(f, env);
    var password := Password(f, env);
    var token := Setting(config, "wxpusher_app_token", env, "WXPUSHER_APP_TOKEN");
    var uid := Setting(config, "wxpusher_uid", env, "WXPUSHER_UID");
    if username != "" && password != "" then Some(Credentials(username, password, token, uid))
    else if |argv| >= 3 then Some(Credentials(argv[1], argv[2], token, uid))
    else None
  }

  /** A value in `config.json` wins over the environment, which wins over
      the empty default; an unreadable config counts as empty. */
  lemma SettingPrecedence(f: ConfigFile, key: string, value: string, env: map<string, string>, envName: string)
    ensures f == ConfigJson(map[key := value]) && value != "" ==>
              Setting(ConfigEntries(f), key, env, envName) == value
    ensures !f.ConfigJson? && envName in env ==>
              Setting(ConfigEntries(f), key, env, envName) == env[envName]
    ensures !f.ConfigJson? && envName !in env ==>
              Setting(ConfigEntries(f), key, env, envName) == ""
  {
  }

  /** A configured username is discarded when the password is missing and
      the command line has two arguments. */
  lemma ArgvReplacesBoth(user: string, argv: seq<string>)
    requires user != "" && |argv| >= 3
    ensures var f := ConfigJson(map["username" := user]);
            ResolveCredentials(f, map[], argv) == Some(Credentials(argv[1], argv[2], "", ""))
  {
    var f := ConfigJson(map["username" := user]);
    assert "password" !in ConfigEntries(f);
  }

  /* ---- notification ---- */

  /** `url` of `send_notification` */
  const NotifyUrl: string := "https://wxpusher.zjiecode.com/api/send/message"

  /** The JSON body `send_notification` posts. */
  datatype Payload = Payload(
    appToken: string,
    content: string,
    summary: string,
    contentType: int,
    uids: seq<string>,
    verifyPay: bool)

  /** `send_notification`: the request it posts, or none when the app token
      or the uid is empty. The content is Markdown (`contentType` 3) with
      the title as heading. */
  function Notification(appToken: string, uid: string, title: string, message: string): (r: Option<Payload>)
    ensures r.None? <==> appToken == "" || uid == ""
    ensures r.Some? ==> && r.value.appToken == appToken && r.value.summary == title
                        && r.value.contentType == 3 && r.value.uids == [uid] && !r.value.verifyPay
  {
    if appToken == "" || uid == "" then None
    else Some(Payload(appToken, "# " + title + "\n\n" + message, title, 3, [uid], false))
  }

  /** The posted content is a level-one heading with the title, a blank
      line, and the message, which can be read back from it. */
  lemma NotificationContent(appToken: string, uid: string, title: string, message: string)
    requires appToken != "" && uid != ""
    ensures var c := Notification(appToken, uid, title, message).value.content;
            && StartsWith(c, "# " + title + "\n\n")
            && c[|title| + 4..] == message
  {
    var c := Notification(appToken, uid, title, message).value.content;
    assert c == ("# " + title + "\n\n") + message;
  }

  const SuccessTitle: string := "日报完成 ✅"
  const FailureTitle: string := "日报未完成 ❌"

  /** The wall clock as `main` formats it: `%Y年%m月%d日` and `%H:%M:%S`. */
  datatype Clock = Clock(date: string, time: string)

  function SuccessMessage(clock: Clock, username: string): string {
    "**日报提交完成！**\n\n📅 **日期**: " + clock.date
    + "\n⏰ **时间**: " + clock.time + " (北京时间)\n👤 **用户**: " + username
    + "\n✨ **状态**: 日报已成功提交"
  }

  function FailureMessage(clock: Clock, username: string): string {
    "**日报提交失败！**\n\n📅 **日期**: " + clock.date
    + "\n⏰ **时间**: " + clock.time + " (北京时间)\n👤 **用户**: " + username
    + "\n❌ **状态**: 日报提交失败，请检查日志\n\n请及时处理或手动提交日报。"
  }

  /* ---- main ---- */

  /** How `main` ends: it returned early for lack of credentials, it is
      still logging in, it returned after a successful run (`Succeeded`), or it raised
      `SystemExit(code)` after a failed one; with the notification it
      posted, if any. */
  datatype MainOutcome =
    | NoCredentials
    | Hangs
    | Succeeded(notice: Option<Payload>)
    | Exit(code: int, notice: Option<Payload>)

  /** `main` */
  function Main(f: ConfigFile, env: map<string, string>, argv: seq<string>,
                b: Browser, today: string, clock: Clock): (r: MainOutcome)
    ensures r.NoCredentials? <==> ResolveCredentials(f, env, argv).None?
    ensures r.Hangs? <==> ResolveCredentials(f, env, argv).Some? && Run(b, today).Pending?
    ensures r.Succeeded? <==> ResolveCredentials(f, env, argv).Some? && Run(b, today).Finished? && Run(b, today).ok
    ensures r.Exit? <==> ResolveCredentials(f, env, argv).Some? && Run(b, today).Finished? && !Run(b, today).ok
    ensures r.Exit? ==> r.code == 1
    ensures r.Succeeded? || r.Exit? ==>
              var c := ResolveCredentials(f, env, argv).value;
              (r.notice.None? <==> c.appToken == "" || c.uid == "")
    ensures r.Succeeded? && r.notice.Some? ==> r.notice.value.summary == SuccessTitle
    ensures r.Exit? && r.notice.Some? ==> r.notice.value.summary == FailureTitle
  {
    match ResolveCredentials(f, env, argv)
    case None => NoCredentials
    case Some(c) =>
      match Run(b, today)
      case Pending => Hangs
      case Finished(ok, _) =>
        if ok then Succeeded(Notification(c.appToken, c.uid, SuccessTitle, SuccessMessage(clock, c.username)))
        else Exit(1, Notification(c.appToken, c.uid, FailureTitle, FailureMessage(clock, c.username)))
  }

  /** Without usable credentials (either half missing and no command-line
      pair): `main` returns normally and neither opens a browser nor posts
      a notification, whatever the browser would do. */
  lemma NoCredentialsIsQuiet(f: ConfigFile, env: map<string, string>, argv: seq<string>,
                             b1: Browser, b2: Browser, today: string, clock: Clock)
    requires ResolveCredentials(f, env, argv).None?
    ensures Main(f, env, argv, b1, today, clock) == NoCredentials
    ensures Main(f, env, argv, b1, today, clock) == Main(f, env, argv, b2, today, clock)
  {
  }

  /** Empty command-line arguments still count as credentials. */
  lemma EmptyArgvCredentialsRun(argv: seq<string>, b: Browser, today: string, clock: Clock)
    requires |argv| >= 3 && argv[1] == "" && argv[2] == ""
    ensures !Main(NoConfigFile, map[], argv, b, today, clock).NoCredentials?
  {
  }
}

=== FILE: report_page.dfy ===
/**
 The report page flow of `auto_daily_report.py`: `check_today_report_submitted`
 and `submit_daily_report`. The browser is an oracle: for each selector it
 says whether waiting for it finds an element, times out (raises), or
 returns no handle; the AI-completion toast is polled, so it answers per
 poll. The flow yields its boolean result and the clicks it made.
 */
module ReportPage {
  import opened Text
  import opened Options

  /** Outcome of `page.wait_for_selector(selector, ...)`. */
  datatype Probe =
    | Found     // an element handle
    | TimedOut  // the wait raised
    | NoHandle  // the wait returned `None`

  /** What the page shows: one probe outcome per selector, the outcome of
      each successive poll for the AI-completion toast (polls past the end
      time out), and the text of the latest report date. */
  datatype Page = Page(wait: string -> Probe, completion: seq<Probe>, reportDate: string)

  /** What the flow does to the page. */
  datatype Action =
    | Click(selector: string)        // click the element the selector found
    | ClickParent(selector: string)  // click the parent of that element
    | PollCompletion                 // one wait for the AI-completion toast

  /** A flow's return value (`None` counts as false) and its actions. */
  datatype Flow = Flow(ok: bool, actions: seq<Action>)

  const AccountNav: string := "span.nav-text:has-text(\"账号列表\")"
  const ExpandIcon: string := "div.expand-icon"
  const ExpandImage: string := "img[alt=\"展开\"]"
  const ExpandFrame: string := "img[src*=\"Frame.png\"]"

  /** The "generate report" button, tried in this order. */
  const GenerateSelectors: seq<string> := [
    "button.action-btn:has-text(\"生成报告\")",
    "button:has-text(\"生成报告\")",
    "div.account-actions button:has-text(\"生成报告\")",
    "//button[contains(text(), \"生成报告\")]"
  ]

  const RecentTab: string := "div.tab-item:has-text(\"最近记录\")"
  const RefreshButton: string := "button.refresh-btn"
  const ReportDate: string := "span.report-date"
  const ConfirmButton: string := "button.van-dialog__confirm:has-text(\"确认\")"
  const GenerateTab: string := "div.tab-item:has-text(\"生成报告\")"
  const AiButton: string := "button.ai-generate-btn:has-text(\"AI生成报告\")"
  const CompletionToast: string := "div.van-toast__text:has-text(\"AI生成完成\")"
  const SubmitButton: string := "button.submit-btn:has-text(\"提交报告\")"
  const SuccessToast: string := "div.van-toast__text:has-text(\"报告提交成功\")"

  /** `for i in range(60)` around the completion-toast wait. */
  const MaxCompletionPolls: nat := 60

  /** The string handed to `wait_for_selector`: entries starting with `//`
      are XPath and get the `xpath=` engine prefix. */
  function Query(selector: string): string {
    if StartsWith(selector, "//") then "xpath=" + selector else selector
  }

  /** Only the last "generate report" selector is sent as XPath. */
  lemma GenerateQueries()
    ensures forall k :: 0 <= k < 3 ==> Query(GenerateSelectors[k]) == GenerateSelectors[k]
    ensures Query(GenerateSelectors[3]) == "xpath=" + GenerateSelectors[3]
  {
    assert GenerateSelectors[0][0] == 'b';
    assert GenerateSelectors[1][0] == 'b';
    assert GenerateSelectors[2][0] == 'd';
    assert GenerateSelectors[3][..2] == "//";
  }

  /** Index of the first selector whose wait finds an element; a timeout or
      a `None` moves on to the next one. */
  function FirstMatch(wait: string -> Probe, selectors: seq<string>): (r: Option<nat>)
    ensures r.Some? ==> r.value < |selectors| && wait(Query(selectors[r.value])) == Found
    ensures r.Some? ==> forall j :: 0 <= j < r.value ==> wait(Query(selectors[j])) != Found
    ensures r.None? <==> forall j :: 0 <= j < |selectors| ==> wait(Query(selectors[j])) != Found
  {
    if |selectors| == 0 then None
    else if wait(Query(selectors[0])) == Found then Some(0)
    else
      match FirstMatch(wait, selectors[1..])
      case None => None
      case Some(k) => Some(k + 1)
  }

  /** The click a step makes when its element is found; none otherwise. */
  function ClickIfFound(page: Page, selector: string): seq<Action> {
    if page.wait(selector) == Found then [Click(selector)] else []
  }

  /** The three ways of finding the "expand" control. The first clicks the
      element itself, the other two its parent; a `None` from the later
      ones raises on `evaluate_handle` and is skipped like a timeout. */
  function ExpandClick(page: Page): Option<Action> {
    if page.wait(ExpandIcon) == Found then Some(Click(ExpandIcon))
    else if page.wait(ExpandImage) == Found then Some(ClickParent(ExpandImage))
    else if page.wait(ExpandFrame) == Found then Some(ClickParent(ExpandFrame))
    else None
  }

  /** `check_today_report_submitted`: open the "recent" tab (a timeout
      there aborts with false), refresh if possible, and compare the latest
      report date with today's date. A missing date element gives false. */
  function CheckSubmitted(page: Page, today: string): (r: Flow)
    ensures r.ok <==> && page.wait(RecentTab) != TimedOut
                      && page.wait(ReportDate) == Found
                      && page.reportDate == today
    ensures forall a :: a in r.actions ==> a == Click(RecentTab) || a == Click(RefreshButton)
  {
    if page.wait(RecentTab) == TimedOut then Flow(false, [])
    else
      var actions := ClickIfFound(page, RecentTab) + ClickIfFound(page, RefreshButton);
      Flow(page.wait(ReportDate) == Found && page.reportDate == today, actions)
  }

  /** The outcome of poll `i` for the AI-completion toast. */
  function CompletionAt(page: Page, i: nat): Probe {
    if i < |page.completion| then page.completion[i] else TimedOut
  }

  function PollsFrom(page: Page, i: nat): (n: nat)
    requires i < MaxCompletionPolls
    ensures i < n <= MaxCompletionPolls
    ensures forall j :: i <= j < n - 1 ==> CompletionAt(page, j) != Found
    ensures n < MaxCompletionPolls ==> CompletionAt(page, n - 1) == Found
    decreases MaxCompletionPolls - i
  {
    if CompletionAt(page, i) == Found || i + 1 == MaxCompletionPolls then i + 1
    else PollsFrom(page, i + 1)
  }

  /** How many times the flow waits for the completion toast: up to and
      including the first poll that finds it, at most 60. */
  function CompletionPolls(page: Page): (n: nat)
    ensures 1 <= n <= MaxCompletionPolls
    ensures forall j :: 0 <= j < n - 1 ==> CompletionAt(page, j) != Found
    ensures n < MaxCompletionPolls ==> CompletionAt(page, n - 1) == Found
  {
    PollsFrom(page, 0)
  }

  /** The AI step: click the button and poll for completion. Running out of
      polls does not stop the flow. */
  function AiActions(page: Page): (actions: seq<Action>)
    ensures forall a :: a in actions ==> a == Click(AiButton) || a == PollCompletion
  {
    if page.wait(AiButton) == Found
    then [Click(AiButton)] + seq(CompletionPolls(page), _ => PollCompletion)
    else []
  }

  /** The first two steps: the account list and the "expand" control; a
      miss in either is tolerated. */
  function Navigate(page: Page): (actions: seq<Action>)
    ensures forall a :: a in actions ==> a == Click(AccountNav) || a == Click(ExpandIcon) || a.ClickParent?
  {
    ClickIfFound(page, AccountNav) + ExpandClick(page).ToSeq()
  }

  /** Steps seven and after: click "submit report" and look for the
      success toast. A found toast returns true, a timeout is taken as
      success too, and a `None` falls off the end of the function. */
  function SubmitStep(page: Page): (r: Flow)
    ensures r.ok <==> page.wait(SubmitButton) == Found && page.wait(SuccessToast) != NoHandle
    ensures Click(SubmitButton) in r.actions <==> page.wait(SubmitButton) == Found
    ensures forall a :: a in r.actions ==> a == Click(SubmitButton)
  {
    match page.wait(SubmitButton)
    case TimedOut => Flow(false, [])
    case NoHandle => Flow(false, [])
    case Found => Flow(page.wait(SuccessToast) != NoHandle, [Click(SubmitButton)])
  }

  /** Steps four to seven, once today's report is known not to be shown:
      confirm and switch tabs if possible, generate with AI (a timeout on
      its button fails the flow), then submit. */
  function GenerateStep(page: Page): (r: Flow)
    ensures r.ok <==> page.wait(AiButton) != TimedOut && SubmitStep(page).ok
    ensures Click(SubmitButton) in r.actions ==> page.wait(AiButton) != TimedOut && page.wait(SubmitButton) == Found
  {
    var prepared := ClickIfFound(page, ConfirmButton) + ClickIfFound(page, GenerateTab);
    if page.wait(AiButton) == TimedOut then Flow(false, prepared)
    else
      var submit := SubmitStep(page);
      Flow(submit.ok, prepared + AiActions(page) + submit.actions)
  }

  /** `submit_daily_report`: the navigation clicks come first; the flow
      fails without a "generate report" button and otherwise clicks the
      first one found. */
  function SubmitDailyReport(page: Page, today: string): (r: Flow)
    ensures |Navigate(page)| <= |r.actions| && r.actions[..|Navigate(page)|] == Navigate(page)
    ensures FirstMatch(page.wait, GenerateSelectors).None? ==> !r.ok && r.actions == Navigate(page)
    ensures FirstMatch(page.wait, GenerateSelectors).Some? ==>
              var k := FirstMatch(page.wait, GenerateSelectors).value;
              |r.actions| > |Navigate(page)| && r.actions[|Navigate(page)|] == Click(Query(GenerateSelectors[k]))
    ensures CheckSubmitted(page, today).ok && FirstMatch(page.wait, GenerateSelectors).Some? ==>
              && r.ok
              && r.actions == Navigate(page)
                              + [Click(Query(GenerateSelectors[FirstMatch(page.wait, GenerateSelectors).value]))]
                              + CheckSubmitted(page, today).actions
  {
    var navigate := Navigate(page);
    match FirstMatch(page.wait, GenerateSelectors)
    case None => Flow(false, navigate)
    case Some(k) =>
      var check := CheckSubmitted(page, today);
      var checked := navigate + [Click(Query(GenerateSelectors[k]))] + check.actions;
      assert checked[..|navigate|] == navigate && checked[|navigate|] == Click(Query(GenerateSelectors[k]));
      if check.ok then Flow(true, checked)
      else
        var generate := GenerateStep(page);
        assert (checked + generate.actions)[..|checked|] == checked;
        Flow(generate.ok, checked + generate.actions)
  }

  /** When the result is true exactly: a "generate report" button was found
      and either today's report is already shown, or the AI step did not
      time out and the submit button was found and clicked (a missing
      success toast still counts as success). */
  lemma SubmitOkIff(page: Page, today: string)
    ensures SubmitDailyReport(page, today).ok <==>
              && FirstMatch(page.wait, GenerateSelectors).Some?
              && (|| CheckSubmitted(page, today).ok
                  || (&& page.wait(AiButton) != TimedOut
                      && page.wait(SubmitButton) == Found
                      && page.wait(SuccessToast) != NoHandle))
  {
  }

  /** Neither the AI button nor the submit button. */
  predicate Preparatory(a: Action) {
    a != Click(AiButton) && a != Click(SubmitButton)
  }

  lemma Differ(x: string, y: string, k: nat)
    requires k < |x| && k < |y| && x[k] != y[k]
    ensures x != y
  {
  }

  /** The selectors clicked before the AI step are neither the AI button
      nor the submit button. */
  lemma EarlySelectorsDiffer()
    ensures AiButton != AccountNav && SubmitButton != AccountNav
    ensures AiButton != ExpandIcon && SubmitButton != ExpandIcon
    ensures AiButton != RecentTab && SubmitButton != RecentTab
    ensures AiButton != RefreshButton && SubmitButton != RefreshButton
    ensures AiButton != ConfirmButton && SubmitButton != ConfirmButton
    ensures AiButton != GenerateTab && SubmitButton != GenerateTab
    ensures AiButton != SubmitButton
  {
    Differ(AiButton, AccountNav, 0);
    Differ(SubmitButton, AccountNav, 0);
    Differ(AiButton, ExpandIcon, 0);
    Differ(SubmitButton, ExpandIcon, 0);
    Differ(AiButton, RecentTab, 0);
    Differ(SubmitButton, RecentTab, 0);
    Differ(AiButton, RefreshButton, 7);
    Differ(SubmitButton, RefreshButton, 7);
    Differ(AiButton, ConfirmButton, 7);
    Differ(SubmitButton, ConfirmButton, 7);
    Differ(AiButton, GenerateTab, 0);
    Differ(SubmitButton, GenerateTab, 0);
    Differ(AiButton, SubmitButton, 7);
  }

  lemma GenerateClickPreparatory(k: nat)
    requires k < |GenerateSelectors|
    ensures Preparatory(Click(Query(GenerateSelectors[k])))
  {
    GenerateQueries();
    var q := Query(GenerateSelectors[k]);
    if k == 0 {
      Differ(AiButton, q, 8);
      Differ(SubmitButton, q, 8);
    } else if k == 1 {
      Differ(AiButton, q, 6);
      Differ(SubmitButton, q, 6);
    } else {
      Differ(AiButton, q, 0);
      Differ(SubmitButton, q, 0);
    }
  }

  /** Every click made before the AI step is preparatory. */
  lemma EarlyClicksPreparatory(page: Page, today: string, k: nat)
    requires k < |GenerateSelectors|
    ensures forall a :: a in Navigate(page) ==> Preparatory(a)
    ensures forall a :: a in CheckSubmitted(page, today).actions ==> Preparatory(a)
    ensures Preparatory(Click(Query(GenerateSelectors[k])))
    ensures Preparatory(Click(ConfirmButton)) && Preparatory(Click(GenerateTab))
    ensures AiButton != SubmitButton
  {
    EarlySelectorsDiffer();
    GenerateClickPreparatory(k);
  }

  /** No "generate report" button under any selector: the flow fails and
      neither generates nor submits. */
  lemma NoGenerateButtonFails(page: Page, today: string)
    requires forall k :: 0 <= k < |GenerateSelectors| ==> page.wait(Query(GenerateSelectors[k])) != Found
    ensures !SubmitDailyReport(page, today).ok
    ensures forall a :: a in SubmitDailyReport(page, today).actions ==> Preparatory(a)
  {
    EarlyClicksPreparatory(page, today, 0);
  }

  /** Today's report already shown: the flow succeeds without clicking the
      AI button or the submit button. */
  lemma AlreadySubmittedSkips(page: Page, today: string)
    requires FirstMatch(page.wait, GenerateSelectors).Some?
    requires page.wait(RecentTab) != TimedOut && page.wait(ReportDate) == Found
    requires page.reportDate == today
    ensures SubmitDailyReport(page, today).ok
    ensures forall a :: a in SubmitDailyReport(page, today).actions ==> Preparatory(a)
  {
    EarlyClicksPreparatory(page, today, FirstMatch(page.wait, GenerateSelectors).value);
  }

  /** The result never depends on the AI-completion toast: running out of
      polls still goes on to submit. */
  lemma CompletionTimeoutHarmless(page: Page, today: string, polls: seq<Probe>)
    ensures SubmitDailyReport(page.(completion := polls), today).ok == SubmitDailyReport(page, today).ok
  {
    SubmitOkIff(page, today);
    SubmitOkIff(page.(completion := polls), today);
  }

  /** The submit button is clicked only when the report was not shown as
      submitted and the AI step did not time out. */
  lemma SubmitOnlyWhenNotYetSubmitted(page: Page, today: string)
    ensures Click(SubmitButton) in SubmitDailyReport(page, today).actions ==>
              && FirstMatch(page.wait, GenerateSelectors).Some?
              && !CheckSubmitted(page, today).ok
              && page.wait(AiButton) != TimedOut
  {
    match FirstMatch(page.wait, GenerateSelectors)
    case None =>
      EarlyClicksPreparatory(page, today, 0);
    case Some(k) =>
      EarlyClicksPreparatory(page, today, k);
  }

  /** Once the submit button has been clicked the flow succeeds unless the
      wait for the success toast returns `None`: a timeout there is taken
      as success. */
  lemma SubmittedMeansSuccess(page: Page, today: string)
    ensures Click(SubmitButton) in SubmitDailyReport(page, today).actions ==>
              (SubmitDailyReport(page, today).ok <==> page.wait(SuccessToast) != NoHandle)
  {
    SubmitOnlyWhenNotYetSubmitted(page, today);
    if Click(SubmitButton) !in SubmitDailyReport(page, today).actions {
      return;
    }
    var k := FirstMatch(page.wait, GenerateSelectors).value;
    var check := CheckSubmitted(page, today);
    var checked := Navigate(page) + [Click(Query(GenerateSelectors[k]))] + check.actions;
    var generate := GenerateStep(page);
    assert SubmitDailyReport(page, today) == Flow(generate.ok, checked + generate.actions);
    EarlyClicksPreparatory(page, today, k);
    assert Click(SubmitButton) !in checked;
    assert Click(SubmitButton) in generate.actions;
  }

  /** Failure toasts on the first two polls and the completion toast on the
      third: three polls, and the report goes through. */
  lemma ThirdPollCompletes(page: Page, today: string)
    requires forall s :: page.wait(s) == Found
    requires page.reportDate != today
    requires page.completion == [TimedOut, TimedOut, Found]
    ensures CompletionPolls(page) == 3
    ensures SubmitDailyReport(page, today).ok
  {
    assert CompletionAt(page, 2) == Found;
    SubmitOkIff(page, today);
  }
}

=== FILE: schedule.dfy ===
/**
 `start_scheduler` of `scheduler.py`: the three cron jobs with their
 default times and environment overrides, the optional run on startup
 (check-in chosen by the hour, then the report), and how `report_main`
 behaves as the body of the daily-report gate.
 */
module Schedule {
  import opened Options
  import opened DailyRecord
  import opened TaskGate
  import opened ReportMain

  /* ---- the daily report as a gated body ---- */

  /** `report_main` as seen by `run_daily_report_task`: returning early for
      lack of credentials is a normal return, a failed run raises
      `SystemExit`, which `except Exception` does not catch. */
  function ReportBody(m: MainOutcome): (b: BodyOutcome)
    ensures b.Returned? <==> m.NoCredentials? || m.Succeeded?
    ensures b.Exited? <==> m.Exit?
    ensures m.Exit? ==> b == Exited(m.code)
    ensures b.StillRunning? <==> m.Hangs?
  {
    match m
    case NoCredentials => Returned
    case Succeeded(_) => Returned
    case Exit(code, _) => Exited(code)
    case Hangs => StillRunning
  }

  /** Without credentials nothing is submitted, yet the gate records the
      daily report as done for today (a date as `strftime` writes it has
      no `\r`) and releases its lock. */
  lemma NoCredentialsMarksDone(s: GateState, days: GateDays, m: MainOutcome)
    requires m.NoCredentials?
    requires !s.record.Unreadable?
    requires !Recorded(s.record, days.check, TaskName(DailyReport))
    requires TaskName(DailyReport) !in s.held
    ensures var r := RunDailyReportTask(s, days, ReportBody(m));
            && r.outcome == Ran(Returned)
            && (Recorded(r.state.record, days.mark, TaskName(DailyReport)) <==> '\r' !in days.mark)
            && r.state.held == s.held
  {
    MarkThenRecorded(s.record, days.mark, TaskName(DailyReport));
  }

  /** A failed report run leaves the record as it was, releases the lock,
      and lets `SystemExit(1)` out of the gated task. The gate's days are
      Beijing dates; `localToday` is the report program's own local date. */
  lemma FailedReportNotMarked(s: GateState, days: GateDays, f: ConfigFile, env: map<string, string>,
                               argv: seq<string>, b: Browser, localToday: string, clock: Clock)
    requires Main(f, env, argv, b, localToday, clock).Exit?
    requires RunDailyReportTask(s, days, ReportBody(Main(f, env, argv, b, localToday, clock))).outcome.Ran?
    ensures var r := RunDailyReportTask(s, days, ReportBody(Main(f, env, argv, b, localToday, clock)));
            && r.state == s
            && r.Escapes()
            && r.outcome.body == Exited(1)
  {
  }

  /* ---- jobs ---- */

  datatype Trigger = Trigger(hour: int, minute: int)

  datatype Job = Job(id: string, task: Task, trigger: Trigger, graceSeconds: nat)

  /** `misfire_grace_time` of every job. */
  const MisfireGrace: nat := 300

  function DigitValue(c: char): nat
    requires IsDigit(c)
  {
    (c as int - '0' as int) as nat
  }

  predicate AllDigits(s: string) {
    forall k :: 0 <= k < |s| ==> IsDigit(s[k])
  }

  function DigitsValue(s: string): nat
    requires AllDigits(s)
  {
    if |s| == 0 then 0 else DigitsValue(s[..|s| - 1]) * 10 + DigitValue(s[|s| - 1])
  }

  /** `int(text)` for an optional sign followed by ASCII digits; anything
      else raises `ValueError`, here `None`. */
  function ParseInt(text: string): (r: Option<int>)
    ensures r.Some? ==> |text| > 0
    ensures r.Some? && r.value < 0 ==> text[0] == '-'
    ensures AllDigits(text) && |text| > 0 ==> r == Some(DigitsValue(text))
    ensures |text| > 1 && (text[0] == '+' || text[0] == '-') && AllDigits(text[1..]) ==>
              r == Some(if text[0] == '-' then 0 - DigitsValue(text[1..]) else DigitsValue(text[1..]) as int)
    ensures r.Some? <==> || (|text| > 0 && AllDigits(text))
                         || (|text| > 1 && (text[0] == '+' || text[0] == '-') && AllDigits(text[1..]))
  {
    if |text| > 0 && (text[0] == '+' || text[0] == '-') then
      var digits := text[1..];
      if |digits| > 0 && AllDigits(digits) then
        var value: int := DigitsValue(digits);
        Some(if text[0] == '-' then -value else value)
      else None
    else if |text| > 0 && AllDigits(text) then Some(DigitsValue(text))
    else None
  }

  /** Decimal digits of a natural number. */
  function Decimal(n: nat): (s: string)
    ensures |s| > 0 && AllDigits(s)
  {
    var d := ['0' + ((n % 10) as char)];
    if n < 10 then d else Decimal(n / 10) + d
  }

  /** Parsing reads back the number a decimal rendering shows. */
  lemma {:induction false} ParseDecimal(n: nat)
    ensures DigitsValue(Decimal(n)) == n
    ensures ParseInt(Decimal(n)) == Some(n)
  {
    var s := Decimal(n);
    if n >= 10 {
      ParseDecimal(n / 10);
      assert s[..|s| - 1] == Decimal(n / 10);
    }
    assert s[0] != '+' && s[0] != '-';
  }

  /** `int(os.getenv(name, default))`: `None` when the variable does not
      parse. */
  function EnvInt(env: map<string, string>, name: string, default: int): (r: Option<int>)
    ensures name !in env ==> r == Some(default)
    ensures name in env ==> r == ParseInt(env[name])
  {
    if name in env then ParseInt(env[name]) else Some(default)
  }

  /** The six time variables, with their defaults. */
  const TimeVariables: seq<string> := [
    "MORNING_CHECKIN_HOUR", "MORNING_CHECKIN_MINUTE",
    "EVENING_CHECKIN_HOUR", "EVENING_CHECKIN_MINUTE",
    "DAILY_REPORT_HOUR", "DAILY_REPORT_MINUTE"
  ]
  const TimeDefaults: seq<int> := [8, 0, 17, 0, 17, 30]

  /** The value `start_scheduler` uses for time variable `k`. */
  function TimeSetting(env: map<string, string>, k: nat): Option<int>
    requires k < 6
  {
    EnvInt(env, TimeVariables[k], TimeDefaults[k])
  }

  /** The three jobs `start_scheduler` registers, or `None` when one of the
      six time variables does not parse (the `ValueError` ends the
      scheduler before anything runs). */
  function Jobs(env: map<string, string>): (r: Option<seq<Job>>)
    ensures r.None? <==> exists k :: 0 <= k < 6 && TimeVariables[k] in env && ParseInt(env[TimeVariables[k]]).None?
    ensures r.Some? ==> |r.value| == 3
    ensures r.Some? ==> forall k :: 0 <= k < 3 ==> r.value[k].graceSeconds == MisfireGrace
    ensures r.Some? ==> r.value[0].task == Checkin(Morning) && r.value[1].task == Checkin(Evening)
                        && r.value[2].task == DailyReport
    ensures r.Some? ==>
              forall k :: 0 <= k < 3 ==>
                r.value[k].trigger == Trigger(TimeSetting(env, 2 * k).value, TimeSetting(env, 2 * k + 1).value)
  {
    assert forall k :: 0 <= k < 6 ==>
             (TimeSetting(env, k).None? <==> TimeVariables[k] in env && ParseInt(env[TimeVariables[k]]).None?);
    if exists k :: 0 <= k < 6 && TimeSetting(env, k).None? then None
    else Some([
      Job("morning_checkin", Checkin(Morning), Trigger(TimeSetting(env, 0).value, TimeSetting(env, 1).value), MisfireGrace),
      Job("evening_checkin", Checkin(Evening), Trigger(TimeSetting(env, 2).value, TimeSetting(env, 3).value), MisfireGrace),
      Job("daily_report", DailyReport, Trigger(TimeSetting(env, 4).value, TimeSetting(env, 5).value), MisfireGrace)
    ])
  }

  /** With no overrides the jobs fire at 08:00, 17:00 and 17:30. */
  lemma DefaultSchedule()
    ensures Jobs(map[]) == Some([
      Job("morning_checkin", Checkin(Morning), Trigger(8, 0), 300),
      Job("evening_checkin", Checkin(Evening), Trigger(17, 0), 300),
      Job("daily_report", DailyReport, Trigger(17, 30), 300)
    ])
  {
  }

  /** An override written in decimal moves only its own job. */
  lemma OverrideMorningHour(hour: nat)
    ensures var jobs := Jobs(map["MORNING_CHECKIN_HOUR" := Decimal(hour)]);
            && jobs.Some?
            && jobs.value[0].trigger == Trigger(hour, 0)
            && jobs.value[1].trigger == Trigger(17, 0)
            && jobs.value[2].trigger == Trigger(17, 30)
  {
    ParseDecimal(hour);
  }

  /* ---- run on startup ---- */

  /** `str.lower` on ASCII letters. */
  function LowerChar(c: char): char {
    if 'A' <= c <= 'Z' then (c as int + 32) as char else c
  }

  function AsciiLower(s: string): (r: string)
    ensures |r| == |s|
    ensures forall k :: 0 <= k < |s| ==> r[k] == LowerChar(s[k])
  {
    if |s| == 0 then "" else [LowerChar(s[0])] + AsciiLower(s[1..])
  }

  /** `os.getenv('RUN_ON_STARTUP', 'false').lower() == 'true'`: the
      default `'false'` stands for an unset variable. */
  function RunOnStartup(env: map<string, string>): (on: bool)
    ensures "RUN_ON_STARTUP" !in env ==> !on
    ensures on ==> |env["RUN_ON_STARTUP"]| == 4
  {
    "RUN_ON_STARTUP" in env && AsciiLower(env["RUN_ON_STARTUP"]) == "true"
  }

  /** A letter lowers to `l` exactly when it is `l` or its capital. */
  lemma LowerCharIs(c: char, l: char)
    requires 'a' <= l <= 'z'
    ensures LowerChar(c) == l <==> c == l || c as int == l as int - 32
  {
  }

  /** The flag is on exactly for the four letters of "true", each in either
      case, and off for every other value and when unset. */
  lemma RunOnStartupValues(env: map<string, string>)
    ensures RunOnStartup(env) <==>
              && "RUN_ON_STARTUP" in env
              && var v := env["RUN_ON_STARTUP"];
                 |v| == 4 && forall k :: 0 <= k < 4 ==> v[k] == "true"[k] || v[k] == "TRUE"[k]
  {
    if "RUN_ON_STARTUP" in env {
      var v := env["RUN_ON_STARTUP"];
      var lower := AsciiLower(v);
      if |v| == 4 {
        forall k | 0 <= k < 4
          ensures lower[k] == "true"[k] <==> v[k] == "true"[k] || v[k] == "TRUE"[k]
        {
          LowerCharIs(v[k], "true"[k]);
          assert "TRUE"[k] as int == "true"[k] as int - 32;
        }
        if forall k :: 0 <= k < 4 ==> lower[k] == "true"[k] {
          assert lower == "true";
        }
      }
    }
  }

  /** The check-in run on startup: morning from 06:00 to 16:59, evening at
      any other hour (Beijing time). */
  function StartupKind(hour: int): (kind: CheckinKind)
    requires 0 <= hour < 24
    ensures kind == Morning <==> 6 <= hour < 17
  {
    if 6 <= hour < 17 then Morning else Evening
  }

  datatype StartupRun = StartupRun(task: Task, result: GateResult)

  /** How `start_scheduler` ends up: the blocking scheduler starts, the
      process exits with a code (a `ValueError` in the time variables, or
      a `SystemExit` from a task run on startup), or a startup run is still
      going. */
  datatype SchedulerEnd = Scheduling | ExitsWith(code: int) | Stalled

  datatype StartupResult = StartupResult(runs: seq<StartupRun>, state: GateState, end: SchedulerEnd)

  /** Whether a gated run lets `start_scheduler` go on. */
  function EndAfter(r: GateResult): Option<SchedulerEnd> {
    if r.Escapes() then Some(ExitsWith(r.outcome.body.code))
    else if r.outcome == Ran(StillRunning) then Some(Stalled)
    else None
  }

  /** `start_scheduler` up to `scheduler.start()`. The clock is a
      parameter: the Beijing hour, and the two date readings of each gated
      run; so are the two bodies' outcomes. */
  function StartScheduler(env: map<string, string>, s: GateState, hour: int,
                          checkinDays: GateDays, checkinBody: BodyOutcome,
                          reportDays: GateDays, reportBody: BodyOutcome): (r: StartupResult)
    requires 0 <= hour < 24
    ensures Jobs(env).None? ==> r == StartupResult([], s, ExitsWith(1))
    ensures !RunOnStartup(env) && Jobs(env).Some? ==> r == StartupResult([], s, Scheduling)
    ensures RunOnStartup(env) && Jobs(env).Some? ==>
              && 1 <= |r.runs| <= 2
              && r.runs[0] == StartupRun(Checkin(StartupKind(hour)),
                                         RunCheckinTask(s, checkinDays, StartupKind(hour), checkinBody))
    ensures |r.runs| == 2 ==>
              r.runs[1] == StartupRun(DailyReport, RunDailyReportTask(r.runs[0].result.state, reportDays, reportBody))
    ensures |r.runs| > 0 ==> r.state == r.runs[|r.runs| - 1].result.state
  {
    if Jobs(env).None? then StartupResult([], s, ExitsWith(1))
    else if !RunOnStartup(env) then StartupResult([], s, Scheduling)
    else
      var kind := StartupKind(hour);
      var first := RunCheckinTask(s, checkinDays, kind, checkinBody);
      var checkin := StartupRun(Checkin(kind), first);
      match EndAfter(first)
      case Some(end) => StartupResult([checkin], first.state, end)
      case None =>
        var second := RunDailyReportTask(first.state, reportDays, reportBody);
        var report := StartupRun(DailyReport, second);
        StartupResult([checkin, report], second.state, EndAfter(second).GetOr(Scheduling))
  }

  /** On startup the report runs right after the check-in unless the
      check-in's body raised `SystemExit` or is still running. */
  lemma ReportFollowsCheckin(env: map<string, string>, s: GateState, hour: int,
                             checkinDays: GateDays, checkinBody: BodyOutcome,
                             reportDays: GateDays, reportBody: BodyOutcome)
    requires 0 <= hour < 24
    requires Jobs(env).Some? && RunOnStartup(env)
    ensures var r := StartScheduler(env, s, hour, checkinDays, checkinBody, reportDays, reportBody);
            var first := RunCheckinTask(s, checkinDays, StartupKind(hour), checkinBody);
            |r.runs| == 2 <==> !first.Escapes() && first.outcome != Ran(StillRunning)
  {
  }

  /** A daily report that fails on startup ends the process with its exit
      code before the scheduler starts. */
  lemma StartupReportFailureStops(env: map<string, string>, s: GateState, hour: int,
                                  checkinDays: GateDays, checkinBody: BodyOutcome, reportDays: GateDays)
    requires 0 <= hour < 24
    requires Jobs(env).Some? && RunOnStartup(env)
    requires checkinBody == Returned || checkinBody == Raised
    requires !Recorded(RunCheckinTask(s, checkinDays, StartupKind(hour), checkinBody).state.record,
                       reportDays.check, TaskName(DailyReport))
    requires TaskName(DailyReport) !in s.held
    ensures StartScheduler(env, s, hour, checkinDays, checkinBody, reportDays, Exited(1)).end == ExitsWith(1)
  {
  }
}

=== FILE: task_gate.dfy ===
/**
 The task gate of `scheduler.py` (`run_checkin_task`,
 `run_daily_report_task`): check the daily record, try the task's lock,
 run the body, mark the day only when the body returned normally, and
 release the lock whatever happened.
 */
module TaskGate {
  import opened Text
  import opened DailyRecord
  import opened TaskLock

  /** `task_type` of `run_checkin_task`. */
  datatype CheckinKind = Morning | Evening

  /** The three gated tasks. */
  datatype Task = Checkin(kind: CheckinKind) | DailyReport

  function KindName(kind: CheckinKind): string {
    match kind
    case Morning => "morning"
    case Evening => "evening"
  }

  /** The gate's `task_name`: `f"checkin_{task_type}"` or `"daily_report"`. */
  function TaskName(task: Task): string {
    match task
    case Checkin(kind) => "checkin_" + KindName(kind)
    case DailyReport => "daily_report"
  }

  const TaskNames: set<string> := {"checkin_morning", "checkin_evening", "daily_report"}

  /** The task names are exactly three, one per task. */
  lemma TaskNamesExact()
    ensures forall t: Task :: TaskName(t) in TaskNames
    ensures forall n :: n in TaskNames ==> exists t: Task :: TaskName(t) == n
    ensures forall t1: Task, t2: Task :: TaskName(t1) == TaskName(t2) ==> t1 == t2
  {
    assert TaskName(Checkin(Morning)) == "checkin_morning";
    assert TaskName(Checkin(Evening)) == "checkin_evening";
    assert TaskName(DailyReport) == "daily_report";
    assert "checkin_morning"[8] != "checkin_evening"[8];
    assert "checkin_morning"[0] != "daily_report"[0];
    assert "checkin_evening"[0] != "daily_report"[0];
  }

  predicate IsIdentChar(c: char) {
    'a' <= c <= 'z' || c == '_'
  }

  lemma IdentIsSafe(n: string)
    requires forall k :: 0 <= k < |n| ==> IsIdentChar(n[k])
    ensures NoBreak(n) && ':' !in n && '/' !in n
  {
  }

  lemma DiffersAt(n: string, m: string, k: nat)
    requires k < |m| <= |n| && n[k] != m[k]
    ensures !StartsWith(n, m)
  {
    assert n[..|m|][k] == n[k];
  }

  /** The task names are plain file names and safe for the record's
      substring test: single lines without `:`, none a prefix of another. */
  lemma TaskNamesSafe()
    ensures SafeNames(TaskNames)
    ensures forall n :: n in TaskNames ==> PlainName(n)
  {
    var cm, ce, dr := "checkin_morning", "checkin_evening", "daily_report";
    IdentIsSafe(cm);
    IdentIsSafe(ce);
    IdentIsSafe(dr);
    DiffersAt(cm, ce, 8);
    DiffersAt(ce, cm, 8);
    DiffersAt(cm, dr, 0);
    DiffersAt(ce, dr, 0);
  }

  /** How the gated body ended: it returned, raised an `Exception` (caught
      by the gate), raised `SystemExit` (not an `Exception`, so it passes
      through after the `finally`), or is still running. */
  datatype BodyOutcome = Returned | Raised | Exited(code: int) | StillRunning

  /** Everything the gate reads and writes: the daily record and the held
      locks. */
  datatype GateState = GateState(record: RecordFile, held: set<string>)

  datatype GateOutcome = AlreadyDone | Busy | Ran(body: BodyOutcome)

  datatype GateResult = GateResult(state: GateState, outcome: GateOutcome) {
    /** A `SystemExit` from the body leaves the gated task. */
    predicate Escapes() {
      outcome.Ran? && outcome.body.Exited?
    }
  }

  /** The two readings of the gate's clock in one run: `has_run_today`
      reads the date before the body runs, `mark_run_today` reads it again
      after the body has returned. They differ when the body runs past
      midnight. */
  datatype GateDays = GateDays(check: string, mark: string)

  /** Both readings on the same day. */
  function SameDay(today: string): GateDays {
    GateDays(today, today)
  }

  /** One gated run of task `name`. */
  function RunGated(s: GateState, days: GateDays, name: string, body: BodyOutcome): (r: GateResult)
    ensures r.outcome.AlreadyDone? <==> Recorded(s.record, days.check, name)
    ensures r.outcome.Busy? <==> !Recorded(s.record, days.check, name) && name in s.held
    ensures r.outcome.Ran? ==> r.outcome.body == body
    ensures r.state.record == (if r.outcome == Ran(Returned) then MarkRunToday(s.record, days.mark, name) else s.record)
    ensures r.outcome != Ran(StillRunning) ==> r.state.held == s.held
    ensures r.outcome == Ran(StillRunning) ==> r.state.held == s.held + {name}
  {
    if Recorded(s.record, days.check, name) then GateResult(s, AlreadyDone)
    else
      var lock := AcquireLock(s.held, name);
      if !lock.ok then GateResult(s, Busy)
      else if body.StillRunning? then GateResult(GateState(s.record, lock.held), Ran(body))
      else
        var record := if body.Returned? then MarkRunToday(s.record, days.mark, name) else s.record;
        GateResult(GateState(record, ReleaseLock(lock.held, name)), Ran(body))
  }

  /** `run_checkin_task(task_type)`: the gate under the name
      `checkin_<task_type>`; a normal return records that name under the
      day read after the body. */
  function RunCheckinTask(s: GateState, days: GateDays, kind: CheckinKind, body: BodyOutcome): (r: GateResult)
    ensures r.outcome.AlreadyDone? <==> Recorded(s.record, days.check, "checkin_" + KindName(kind))
    ensures r.outcome == Ran(Returned) && !s.record.Unreadable? ==>
              (Recorded(r.state.record, days.mark, "checkin_" + KindName(kind)) <==> '\r' !in days.mark)
    ensures r.outcome != Ran(Returned) ==> r.state.record == s.record
  {
    var r := RunGated(s, days, TaskName(Checkin(kind)), body);
    if r.outcome == Ran(Returned) && !s.record.Unreadable? then
      MarkThenRecorded(s.record, days.mark, TaskName(Checkin(kind)));
      r
    else r
  }

  /** `run_daily_report_task()`: the gate under the name `daily_report`. */
  function RunDailyReportTask(s: GateState, days: GateDays, body: BodyOutcome): (r: GateResult)
    ensures r.outcome.AlreadyDone? <==> Recorded(s.record, days.check, "daily_report")
    ensures r.outcome == Ran(Returned) && !s.record.Unreadable? ==>
              (Recorded(r.state.record, days.mark, "daily_report") <==> '\r' !in days.mark)
    ensures r.outcome != Ran(Returned) ==> r.state.record == s.record
  {
    var r := RunGated(s, days, TaskName(DailyReport), body);
    if r.outcome == Ran(Returned) && !s.record.Unreadable? then
      MarkThenRecorded(s.record, days.mark, TaskName(DailyReport));
      r
    else r
  }

  /** A second gated run of a task right after one that returned normally,
      on a readable record and within the same day, stops at the record and
      changes nothing, whatever its body would have done. */
  lemma RerunStopsAtRecord(s: GateState, today: string, name: string, later: BodyOutcome)
    requires !s.record.Unreadable?
    requires '\r' !in today && '\r' !in name
    requires RunGated(s, SameDay(today), name, Returned).outcome.Ran?
    ensures var s' := RunGated(s, SameDay(today), name, Returned).state;
            RunGated(s', SameDay(today), name, later) == GateResult(s', AlreadyDone)
  {
    MarkThenRecorded(s.record, today, name);
  }

  /** Marking another task the same day keeps a task recorded, on records
      the gate itself wrote. */
  lemma OtherMarkKeepsRecorded(file: RecordFile, today: string, a: string, b: string)
    requires IsIsoDate(today) && a in TaskNames && b in TaskNames
    requires WellFormedRecord(file, TaskNames)
    requires Recorded(file, today, a)
    ensures Recorded(MarkRunToday(file, today, b), today, a)
  {
    TaskNamesSafe();
    var marked := MarkRunToday(file, today, b);
    MarkKeepsWellFormed(file, today, b, TaskNames);
    RecordedIsLineTest(file, today, a, TaskNames);
    RecordedIsLineTest(marked, today, a, TaskNames);
    MarkedLines(file, today, b);
    var key := RecordKey(today, a);
    assert key[..10] == today;
    WellFormedReadsBack(file, TaskNames);
    assert key in TodayLines(SplitLines(file.content), today);
  }

  /** One gated run in a day's sequence: the task's name and how its body
      ends. */
  datatype GateRun = GateRun(name: string, body: BodyOutcome)

  /** The gated runs of one day, in order, each starting from the state the
      previous one left. */
  function RunDay(s: GateState, today: string, runs: seq<GateRun>): (results: seq<GateResult>)
    ensures |results| == |runs|
    ensures |runs| > 0 ==> results[0] == RunGated(s, SameDay(today), runs[0].name, runs[0].body)
    decreases |runs|
  {
    if |runs| == 0 then []
    else
      var first := RunGated(s, SameDay(today), runs[0].name, runs[0].body);
      [first] + RunDay(first.state, today, runs[1..])
  }

  /** One same-day gated run of any of the three tasks keeps a recorded
      task recorded and the record gate-written; a run of that task stops
      at the record. */
  lemma StepKeepsDone(s: GateState, today: string, a: string, run: GateRun)
    requires IsIsoDate(today) && a in TaskNames && run.name in TaskNames
    requires WellFormedRecord(s.record, TaskNames)
    requires Recorded(s.record, today, a)
    ensures var r := RunGated(s, SameDay(today), run.name, run.body);
            && WellFormedRecord(r.state.record, TaskNames)
            && Recorded(r.state.record, today, a)
            && (run.name == a ==> r.outcome == AlreadyDone)
  {
    var r := RunGated(s, SameDay(today), run.name, run.body);
    if r.outcome == Ran(Returned) {
      TaskNamesSafe();
      MarkKeepsWellFormed(s.record, today, run.name, TaskNames);
      OtherMarkKeepsRecorded(s.record, today, a, run.name);
    }
  }

  /** Once a task is recorded on a gate-written record, it stays recorded
      through any sequence of same-day gate runs of the three tasks, and
      every run of it in that sequence stops at the record. */
  lemma {:induction false} StaysDone(s: GateState, today: string, a: string, runs: seq<GateRun>)
    requires IsIsoDate(today) && a in TaskNames
    requires forall k :: 0 <= k < |runs| ==> runs[k].name in TaskNames
    requires WellFormedRecord(s.record, TaskNames)
    requires Recorded(s.record, today, a)
    ensures var results := RunDay(s, today, runs);
            forall k :: 0 <= k < |runs| ==>
              && Recorded(results[k].state.record, today, a)
              && (runs[k].name == a ==> results[k].outcome == AlreadyDone)
    decreases |runs|
  {
    if |runs| > 0 {
      var first := RunGated(s, SameDay(today), runs[0].name, runs[0].body);
      StepKeepsDone(s, today, a, runs[0]);
      var rest := RunDay(first.state, today, runs[1..]);
      StaysDone(first.state, today, a, runs[1..]);
      var results := RunDay(s, today, runs);
      assert results == [first] + rest;
      forall k | 0 < k < |runs|
        ensures Recorded(results[k].state.record, today, a)
        ensures runs[k].name == a ==> results[k].outcome == AlreadyDone
      {
        assert results[k] == rest[k - 1];
        assert runs[k] == runs[1..][k - 1];
      }
    }
  }

  /** Once a task has returned normally on a gate-written record, every
      later gated run of it the same day stops at the record, whatever
      other tasks ran in between and whatever its body would have done. */
  lemma AtMostOncePerDay(s: GateState, today: string, a: string, later: seq<GateRun>)
    requires IsIsoDate(today) && a in TaskNames
    requires forall k :: 0 <= k < |later| ==> later[k].name in TaskNames
    requires WellFormedRecord(s.record, TaskNames)
    requires RunGated(s, SameDay(today), a, Returned).outcome.Ran?
    ensures var s' := RunGated(s, SameDay(today), a, Returned).state;
            forall k :: 0 <= k < |later| && later[k].name == a ==>
              RunDay(s', today, later)[k].outcome == AlreadyDone
  {
    TaskNamesSafe();
    var s' := RunGated(s, SameDay(today), a, Returned).state;
    IsoDateNoReturn(today);
    NoBreakNoReturn(a);
    MarkThenRecorded(s.record, today, a);
    MarkKeepsWellFormed(s.record, today, a, TaskNames);
    StaysDone(s', today, a, later);
  }

  /** Marking one task does not make another task look done, on records
      the gate itself wrote. */
  lemma MarkingOneTaskLeavesOthers(file: RecordFile, today: string, a: string, b: string)
    requires IsIsoDate(today) && a in TaskNames && b in TaskNames && a != b
    requires WellFormedRecord(file, TaskNames)
    requires !Recorded(file, today, b)
    ensures !Recorded(MarkRunToday(file, today, a), today, b)
  {
    TaskNamesSafe();
    var marked := MarkRunToday(file, today, a);
    MarkKeepsWellFormed(file, today, a, TaskNames);
    RecordedIsLineTest(file, today, b, TaskNames);
    RecordedIsLineTest(marked, today, b, TaskNames);
    MarkedLines(file, today, a);
    var keyB := RecordKey(today, b);
    assert keyB != RecordKey(today, a) by {
      assert keyB[11..] == b && RecordKey(today, a)[11..] == a;
    }
    if file.Present? {
      WellFormedReadsBack(file, TaskNames);
      assert keyB !in SplitLines(file.content);
      assert keyB !in KeptLines(file, today);
    }
  }

  /** A task marked on another day is not done today, on records the gate
      itself wrote, whatever the record held before: the write prunes every
      line of other days, today's included. */
  lemma EarlierDayDoesNotCount(file: RecordFile, earlier: string, today: string, name: string)
    requires IsIsoDate(earlier) && IsIsoDate(today) && earlier != today
    requires name in TaskNames
    requires WellFormedRecord(file, TaskNames)
    ensures !Recorded(MarkRunToday(file, earlier, name), today, name)
  {
    TaskNamesSafe();
    var marked := MarkRunToday(file, earlier, name);
    if !file.Unreadable? {
      MarkKeepsWellFormed(file, earlier, name, TaskNames);
      RecordedIsLineTest(marked, today, name, TaskNames);
      MarkedLinesAreToday(file, earlier, name);
      var key := RecordKey(today, name);
      assert key[..10] == today;
      assert !StartsWith(key, earlier);
      assert key !in SplitLines(marked.content);
    }
  }

  /** A run whose body returns after midnight marks the new day: the write
      prunes every line of the day the run started on, so on a gate-written
      record no task counts as done on that earlier day any more. */
  lemma MidnightRunForgetsCheckDay(s: GateState, days: GateDays, a: string, b: string, body: BodyOutcome)
    requires IsIsoDate(days.check) && IsIsoDate(days.mark) && days.check != days.mark
    requires a in TaskNames && b in TaskNames
    requires WellFormedRecord(s.record, TaskNames)
    requires RunGated(s, days, a, body).outcome == Ran(Returned)
    ensures !Recorded(RunGated(s, days, a, body).state.record, days.check, b)
  {
    TaskNamesSafe();
    var marked := MarkRunToday(s.record, days.mark, a);
    MarkKeepsWellFormed(s.record, days.mark, a, TaskNames);
    RecordedIsLineTest(marked, days.check, b, TaskNames);
    if !s.record.Unreadable? {
      MarkedLinesAreToday(s.record, days.mark, a);
      assert RecordKey(days.check, b)[..10] == days.check;
    }
  }
}

=== FILE: task_lock.dfy ===
/**
 Per-task locks of the gate (`scheduler.py`). On disk a lock is an
 exclusively `flock`ed file `LOCK_DIR/<name>.lock`; here the set of task
 names whose lock is currently held stands for those files.
 */
module TaskLock {
  import opened Text

  /** `LOCK_DIR` */
  const LockDir: string := "/tmp/daka_locks"

  /** `DAILY_RECORD_FILE` */
  const RecordPath: string := LockDir + "/daily_record.txt"

  /** `get_lock_file`: `LOCK_DIR / f'{name}.lock'`. As with `pathlib`, an
      absolute file name replaces the directory. */
  function LockPath(name: string): (p: string)
    ensures |p| >= 5 && p[|p| - 5..] == ".lock"
    ensures PlainName(name) ==> StartsWith(p, LockDir + "/")
  {
    var file := name + ".lock";
    assert file[|file| - 5..] == ".lock";
    assert |name| > 0 ==> file[0] == name[0] && name[0] in name;
    assert |name| == 0 ==> file[0] == '.';
    if StartsWith(file, "/") then file else LockDir + "/" + file
  }

  /** A task name that is a plain file name. */
  predicate PlainName(name: string) {
    '/' !in name
  }

  /** A plain name's lock lives directly in `LOCK_DIR`, ends in `.lock`,
      and the name can be read back from the path. */
  lemma LockPathShape(name: string)
    requires PlainName(name)
    ensures var p := LockPath(name);
            && StartsWith(p, LockDir + "/")
            && |p| == |LockDir| + 1 + |name| + 5
            && p[|LockDir| + 1..|p| - 5] == name
            && p[|p| - 5..] == ".lock"
  {
    var file := name + ".lock";
    if |name| > 0 {
      assert file[0] == name[0];
      assert name[0] in name;
    } else {
      assert file[0] == '.';
    }
    assert !StartsWith(file, "/");
  }

  /** Distinct plain task names never share a lock file. */
  lemma LockPathInjective(a: string, b: string)
    requires PlainName(a) && PlainName(b)
    requires LockPath(a) == LockPath(b)
    ensures a == b
  {
    LockPathShape(a);
    LockPathShape(b);
  }

  /** No task's lock file is the daily record file. */
  lemma LockPathIsNotRecord(name: string)
    ensures LockPath(name) != RecordPath
  {
    var p := LockPath(name);
    assert p[|p| - 5..] == ".lock";
    assert RecordPath[|RecordPath| - 5..] == "d.txt";
  }

  /** Outcome of `acquire_lock`: whether it returned `True`, and the held
      set afterwards. */
  datatype Acquired = Acquired(ok: bool, held: set<string>)

  /** `acquire_lock`: a non-blocking exclusive lock; it fails exactly when
      another run holds the task's lock, and then changes nothing. */
  function AcquireLock(held: set<string>, name: string): (r: Acquired)
    ensures r.ok <==> name !in held
    ensures r.held == held + {name}
  {
    if name in held then Acquired(false, held) else Acquired(true, held + {name})
  }

  /** `release_lock`: removing a lock that is not there is not an error
      (`missing_ok=True`). */
  function ReleaseLock(held: set<string>, name: string): (h: set<string>)
    ensures name !in h
    ensures forall n :: n in held && n != name ==> n in h
    ensures h <= held
  {
    held - {name}
  }

  /** Two acquisitions without a release in between: the first succeeds,
      the second fails. */
  lemma AcquireTwice(held: set<string>, name: string)
    requires name !in held
    ensures AcquireLock(held, name).ok
    ensures !AcquireLock(AcquireLock(held, name).held, name).ok
  {
  }

  /** Releasing twice is the same as releasing once. */
  lemma ReleaseIdempotent(held: set<string>, name: string)
    ensures ReleaseLock(ReleaseLock(held, name), name) == ReleaseLock(held, name)
  {
  }

  /** A successful acquisition followed by a release restores the held set. */
  lemma AcquireThenRelease(held: set<string>, name: string)
    requires AcquireLock(held, name).ok
    ensures ReleaseLock(AcquireLock(held, name).held, name) == held
  {
  }
}

=== FILE: text.dfy ===
/**
 Python string primitives the scheduler's daily record relies on:
 `str.startswith`, the substring test `key in content`, `str.splitlines()`,
 `'\n'.join(lines)` and the newline translation of `Path.read_text`.
 Strings are sequences of code points.
 */
module Text {

  /** `s.startswith(prefix)` */
  predicate StartsWith(s: string, prefix: string) {
    |prefix| <= |s| && s[..|prefix|] == prefix
  }

  /** `t` occurs in `s` starting at index `i`. */
  predicate OccursAt(s: string, t: string, i: int) {
    0 <= i && i + |t| <= |s| && s[i..i + |t|] == t
  }

  /** Python's substring test `t in s`. */
  predicate Contains(s: string, t: string) {
    exists i | 0 <= i <= |s| - |t| :: OccursAt(s, t, i)
  }

  /** The code points `str.splitlines()` treats as line boundaries
      (`\r\n` counts as one boundary, see `BreakWidth`). */
  predicate IsLineBreak(c: char) {
    c == '\n' || c == '\r' || c == '\U{B}' || c == '\U{C}'
    || c == '\U{1C}' || c == '\U{1D}' || c == '\U{1E}' || c == '\U{85}'
    || c == '\U{2028}' || c == '\U{2029}'
  }

  /** `s` is a single line: no boundary inside it. */
  predicate NoBreak(s: string) {
    forall k :: 0 <= k < |s| ==> !IsLineBreak(s[k])
  }

  /** Index of the first line boundary in `s`, or `|s|` when there is none. */
  function LineLength(s: string): (n: nat)
    ensures n <= |s|
    ensures NoBreak(s[..n])
    ensures n < |s| ==> IsLineBreak(s[n])
  {
    if |s| == 0 then 0
    else if IsLineBreak(s[0]) then 0
    else
      var m := LineLength(s[1..]);
      assert s[..m + 1] == [s[0]] + s[1..][..m];
      m + 1
  }

  /** Number of code points the boundary at `i` occupies: two for `\r\n`. */
  function BreakWidth(s: string, i: nat): (w: nat)
    requires i < |s|
    ensures 1 <= w <= 2 && i + w <= |s|
  {
    if s[i] == '\r' && i + 1 < |s| && s[i + 1] == '\n' then 2 else 1
  }

  /** `s.splitlines()`: the lines of `s` without their boundaries; a
      trailing boundary does not start an empty last line. */
  function SplitLines(s: string): (lines: seq<string>)
    ensures forall k :: 0 <= k < |lines| ==> NoBreak(lines[k])
    ensures s == "" <==> lines == []
    decreases |s|
  {
    if s == "" then []
    else
      var n := LineLength(s);
      if n == |s| then [s]
      else [s[..n]] + SplitLines(s[n + BreakWidth(s, n)..])
  }

  /** `'\n'.join(lines)` */
  function JoinLines(lines: seq<string>): (s: string)
    ensures |lines| == 0 ==> s == ""
    ensures |lines| > 0 ==> StartsWith(s, lines[0])
    ensures |lines| > 1 ==> |s| > |lines[0]| && s[|lines[0]|] == '\n'
  {
    if |lines| == 0 then ""
    else if |lines| == 1 then lines[0]
    else lines[0] + "\n" + JoinLines(lines[1..])
  }

  /** The text `Path.read_text` returns for the stored text `s`: universal
      newlines read `\r\n` and a lone `\r` as `\n`. */
  function ReadText(s: string): string
    decreases |s|
  {
    if |s| == 0 then ""
    else if s[0] == '\r' then
      "\n" + ReadText(if |s| > 1 && s[1] == '\n' then s[2..] else s[1..])
    else [s[0]] + ReadText(s[1..])
  }

  /** No `\r` survives a read. */
  lemma {:induction false} ReadTextHasNoReturn(s: string)
    ensures '\r' !in ReadText(s)
    decreases |s|
  {
    if |s| > 0 {
      if s[0] == '\r' {
        ReadTextHasNoReturn(if |s| > 1 && s[1] == '\n' then s[2..] else s[1..]);
      } else {
        ReadTextHasNoReturn(s[1..]);
      }
    }
  }

  /** Lines that `SplitLines` reproduces exactly once joined. */
  predicate PlainLines(lines: seq<string>) {
    forall k :: 0 <= k < |lines| ==> lines[k] != "" && NoBreak(lines[k])
  }

  lemma {:induction false} LineLengthOfLine(a: string, b: string)
    requires NoBreak(a)
    requires |b| > 0 && IsLineBreak(b[0])
    ensures LineLength(a + b) == |a|
    decreases |a|
  {
    if |a| > 0 {
      assert (a + b)[0] == a[0];
      assert (a + b)[1..] == a[1..] + b;
      LineLengthOfLine(a[1..], b);
    } else {
      assert a + b == b;
    }
  }

  lemma {:induction false} LineLengthOfWhole(a: string)
    requires NoBreak(a)
    ensures LineLength(a) == |a|
    decreases |a|
  {
    if |a| > 0 {
      LineLengthOfWhole(a[1..]);
    }
  }

  /** Joining non-empty single lines with `'\n'` and splitting again gives
      the lines back. */
  lemma {:induction false} SplitJoin(lines: seq<string>)
    requires PlainLines(lines)
    ensures SplitLines(JoinLines(lines)) == lines
    decreases |lines|
  {
    if |lines| == 0 {
    } else if |lines| == 1 {
      LineLengthOfWhole(lines[0]);
    } else {
      var l := lines[0];
      var rest := JoinLines(lines[1..]);
      var s := JoinLines(lines);
      assert s == l + ("\n" + rest);
      assert l != "" && NoBreak(l);
      LineLengthOfLine(l, "\n" + rest);
      assert s[|l|] == '\n';
      assert BreakWidth(s, |l|) == 1;
      assert s[|l| + 1..] == rest;
      assert s[..|l|] == l;
      SplitJoin(lines[1..]);
      assert lines == [l] + lines[1..];
    }
  }

  /** Lines without `\r` joined with `'\n'` read back as written. */
  lemma {:induction false} JoinReadsBack(lines: seq<string>)
    requires forall k :: 0 <= k < |lines| ==> '\r' !in lines[k]
    ensures '\r' !in JoinLines(lines)
    ensures ReadText(JoinLines(lines)) == JoinLines(lines)
    decreases |lines|
  {
    if |lines| > 1 {
      JoinReadsBack(lines[1..]);
      assert '\r' !in lines[0];
    } else if |lines| == 1 {
      assert '\r' !in lines[0];
    }
    ReadTextUnchanged(JoinLines(lines));
  }

  /** Reading keeps a prefix without `\r` and translates the rest. */
  lemma {:induction false} ReadTextConcat(a: string, b: string)
    requires forall k :: 0 <= k < |a| ==> a[k] != '\r'
    ensures ReadText(a + b) == a + ReadText(b)
    decreases |a|
  {
    if |a| == 0 {
      assert a + b == b;
    } else {
      var head, tail := a[0], a[1..];
      assert forall k :: 0 <= k < |tail| ==> tail[k] == a[k + 1];
      ReadTextStep(a, b);
      ReadTextConcat(tail, b);
      assert a == [head] + tail;
    }
  }

  /** A text without `\r` reads back as it is. */
  lemma ReadTextUnchanged(s: string)
    requires '\r' !in s
    ensures ReadText(s) == s
  {
    ReadTextConcat(s, "");
    assert s + "" == s;
  }

  lemma ReadTextStep(a: string, b: string)
    requires |a| > 0 && a[0] != '\r'
    ensures ReadText(a + b) == [a[0]] + ReadText(a[1..] + b)
  {
    var ab := a + b;
    assert ab[0] == a[0];
    assert ab[1..] == a[1..] + b;
  }

  /** A single line, one boundary other than `\r`, and the rest split as
      that line followed by the lines of the rest. */
  lemma SplitAfterLine(p: string, c: char, rest: string)
    requires NoBreak(p) && IsLineBreak(c) && c != '\r'
    ensures SplitLines(p + ([c] + rest)) == [p] + SplitLines(rest)
  {
    var t := p + ([c] + rest);
    LineLengthOfLine(p, [c] + rest);
    assert t[|p|] == c;
    assert t[..|p|] == p;
    assert t[|p| + 1..] == rest;
  }

  lemma NoBreakNoReturn(l: string)
    requires NoBreak(l)
    ensures '\r' !in l
  {
  }

  /** The boundary `read_text` leaves in place of the boundary `c`. */
  function ReadBreak(c: char): char {
    if c == '\r' then '\n' else c
  }

  /** Reading a text that starts with a boundary: one `\n` for `\r\n` or
      `\r`, any other boundary kept. */
  lemma ReadAtBreak(s: string, n: nat)
    requires n < |s| && IsLineBreak(s[n])
    ensures ReadText(s[n..]) == [ReadBreak(s[n])] + ReadText(s[n + BreakWidth(s, n)..])
  {
    var tail := s[n..];
    var w := BreakWidth(s, n);
    assert tail[0] == s[n];
    if s[n] == '\r' {
      assert (|tail| > 1 && tail[1] == '\n') == (w == 2);
      assert tail[w..] == s[n + w..];
    } else {
      assert tail[1..] == s[n + 1..];
    }
  }

  /** Reading keeps the first line of a text as it is. */
  lemma ReadFirstLine(s: string)
    ensures ReadText(s) == s[..LineLength(s)] + ReadText(s[LineLength(s)..])
  {
    var n := LineLength(s);
    var line, tail := s[..n], s[n..];
    NoBreakNoReturn(line);
    assert line + tail == s;
    ReadTextConcat(line, tail);
  }

  /** Reading with universal newlines changes no line: `splitlines` of the
      text read gives the lines of the text stored, `\r\n` and `\r`
      included. */
  lemma {:induction false} SplitRead(s: string)
    ensures SplitLines(ReadText(s)) == SplitLines(s)
    decreases |s|
  {
    if s != "" {
      var n := LineLength(s);
      if n == |s| {
        assert s[..n] == s;
        NoBreakNoReturn(s);
        ReadTextUnchanged(s);
      } else {
        var rest := s[n + BreakWidth(s, n)..];
        ReadFirstLine(s);
        ReadAtBreak(s, n);
        SplitAfterLine(s[..n], ReadBreak(s[n]), ReadText(rest));
        SplitRead(rest);
      }
    }
  }

  /** An occurrence in `b` is an occurrence in `a + b`, shifted by `|a|`. */
  lemma OccursAfter(a: string, b: string, t: string, i: int)
    requires OccursAt(b, t, i)
    ensures OccursAt(a + b, t, |a| + i)
  {
    assert (a + b)[|a| + i..|a| + i + |t|] == b[i..i + |t|];
  }

  /** Each line of a `'\n'`-joined text is a substring of it. */
  lemma {:induction false} JoinContainsLine(lines: seq<string>, k: nat)
    requires k < |lines|
    ensures Contains(JoinLines(lines), lines[k])
    decreases |lines|
  {
    if |lines| == 1 {
      assert OccursAt(JoinLines(lines), lines[k], 0);
    } else {
      var s := JoinLines(lines);
      var rest := JoinLines(lines[1..]);
      assert s == lines[0] + "\n" + rest;
      if k == 0 {
        assert OccursAt(s, lines[0], 0);
      } else {
        JoinContainsLine(lines[1..], k - 1);
        var t := lines[k];
        assert lines[1..][k - 1] == t;
        var i :| 0 <= i <= |rest| - |t| && OccursAt(rest, t, i);
        assert s == (lines[0] + "\n") + rest;
        OccursAfter(lines[0] + "\n", rest, t, i);
      }
    }
  }
}
